=== FILE: README.md ===
# Bridge table: auction rules, deck and hand helpers

This project models in Dafny the rules engine of a contract-bridge bidding table written in
TypeScript. It covers three parts.

The bidding box (`components/BiddingBox.tsx`):
- which bids, Doubles and Redoubles it offers for a bidding history;
- the string it sends when a call is confirmed;
- how a history entry is displayed;
- the four-column table the history is laid out in.

The table page (`pages/index.tsx`):
- recognising passes and deciding that the auction is over;
- normalising the confirmed call and appending it to the history;
- whose turn it is;
- building, shuffling and dealing the deck;
- writing a hand in the dotted notation sent to the bidding service.

The hand display (`components/PlayerHand.tsx`):
- grouping a hand into sorted suits;
- naming the picture file of a card.

The bidding history is a sequence of strings, as the page stores it. The validators work on
those strings exactly as written: `"P"`, `"X"`, `"XX"` and bids such as `"1NT"`. The bridge rules
are stated over `Calls.Encode(calls)`, the history an auction of structured calls
(`Bid(level, strain) | Pass | Double | Redouble`) produces:
- sufficiency of a bid: Law 18 of the Laws of Duplicate Bridge (2017);
- Double and Redouble: Law 19;
- the end of the auction: Law 22.

Modules:
- `Text`: the JavaScript string operations used: `toLowerCase`, `parseInt`, `endsWith`, `join("")`,
  and a backward scan for the last element not matching a test. It also defines `Split`, which the
  table never calls: it reads the dotted hand notation back into its pieces, so that the
  notation's contents can be stated.
- `Sorting`: `Array.prototype.sort` with a key comparator. It is stable since ECMAScript 2019,
  so it is modelled as insertion sort, with an in-place array method proved equal to it.
- `Cards`: suit symbols, rank order, card strings.
- `Calls`: calls, their strings, the bid index, seats.
- `BiddingBox`, `Deck`, `Auction` (the page's auction handlers and its state as the class
  `Auction.Table`), `PlayerHand`.

Loops in the source are methods with loops here: the Double/Redouble scans, the history
table, `generateDeck`, `shuffle`, `formatHandForAI` and `sortAndGroupHand`. Each of them except
the shuffle is proved equal to a specification function, and the properties are proved about
that function. The shuffle is proved to return a rearrangement of its input and nothing more
(see "Left out").

The Double validator contains unreachable code: a second X/XX test and a loop that can never
find a non-Pass entry. The Redouble validator also has a dead "XX" test. In the model each dead
branch holds `assert false`, which proves it unreachable.

## Model

| member | source | states |
|---|---|---|
| Text.Lower | pages/index.tsx:181 | Lower-casing keeps the length and folds each ASCII capital to its small letter, leaving every other character alone |
| Text.ParseInt | components/BiddingBox.tsx:89 | `parseInt` is NaN (None) exactly when the text is empty or does not start with a digit |
| Text.LastIndexNot | components/BiddingBox.tsx:94-96 | The backward scan returns the last position whose element fails the test, with every later element passing it, or None when all pass |
| Text.Concat | pages/index.tsx:54-57 | `join("")` holds exactly the characters of its parts, and is non-empty when its first part is |
| Text.Split | pages/index.tsx:59 | Reading a dotted text back into pieces gives at least one piece, and no piece contains the separator; it inverts the dotted template of the hand notation |
| Text.SplitCons | pages/index.tsx:59 | Reading back a separator-free piece followed by the separator gives that piece first, so each segment of the template is recovered |
| Sorting.StableSort | components/PlayerHand.tsx:29-35 | The stable sort keeps the number of elements |
| Sorting.StableSortSorted | components/PlayerHand.tsx:29-35 | The sorted list is ordered by the key |
| Sorting.StableSortPermutation | components/PlayerHand.tsx:29-35 | The sorted list is a rearrangement of its input |
| Sorting.StableSortStable | components/PlayerHand.tsx:29-35 | The sort is stable: for every key, the elements with that key come out in the order they went in |
| Sorting.InsertWithKey | components/PlayerHand.tsx:29-35 | One insertion never moves the element past another with the same key |
| Sorting.InsertPermutation | pages/index.tsx:49-51 | One insertion step adds exactly the inserted element |
| Sorting.SortInPlace | pages/index.tsx:49-51 | Sorting an array in place leaves it holding the stable sort of its old contents |
| Sorting.InsertLast | components/PlayerHand.tsx:30-34 | One insertion pass moves the element left past every larger key and leaves the rest of the array alone |
| Sorting.InsertAt | components/PlayerHand.tsx:30-34 | Insertion puts the element just after the last key not larger than its own, in front of the larger keys that end the list |
| Cards.IndexOf | components/PlayerHand.tsx:33 | `indexOf` is -1 exactly when the element is absent, otherwise the first position holding it |
| Cards.MakeCard | pages/index.tsx:66 | A card is its suit symbol followed by its rank |
| Cards.RankIndex | pages/index.tsx:50 | `rankOrder.indexOf` is -1 exactly for an unknown rank; otherwise the rank sits at that position of the rank order |
| Cards.RankIndexOfRank | components/PlayerHand.tsx:11 | Each rank sorts to its own position 0 (ace) to 12 (two) |
| Cards.RankIndexInjective | components/PlayerHand.tsx:33 | Distinct known ranks have distinct sort positions |
| Calls.StrainRank | components/BiddingBox.tsx:85 | Strains rank 0 to 4 |
| Calls.LevelText | components/BiddingBox.tsx:22 | A level label is one digit whose value is the level |
| Calls.SuitOrder | components/BiddingBox.tsx:85 | The suit table has an entry exactly for the five strain labels, each with its strain's rank |
| Calls.BidIndex | components/BiddingBox.tsx:88-90 | A bid's index lies in 0..34; its quotient by 5 is the level less one and its remainder the strain's rank |
| Calls.BidIndexOrder | components/BiddingBox.tsx:88-90 | Indices order bids by level first, then strain |
| Calls.BidIndexInjective | components/BiddingBox.tsx:88-90 | Distinct bids have distinct indices |
| Calls.BidIndexOnto | components/BiddingBox.tsx:88-90 | Every index 0..34 is the index of some bid, so index and bid are in one-to-one correspondence |
| Calls.GetBidIndex | components/BiddingBox.tsx:88-90 | The index is NaN (None) iff the number does not start with a digit or the suit is not a strain label; otherwise its quotient by 5 is the number less one and its remainder the suit's rank |
| Calls.GetBidIndexOfLabels | components/BiddingBox.tsx:88-90 | `getBidIndex` on the level and suit labels of a bid is that bid's index |
| Calls.SplitBid | components/BiddingBox.tsx:99-106 | The number part and the suit part together are the entry |
| Calls.SplitBidOfLabels | components/BiddingBox.tsx:99-106 | Splitting number + suit gives back the two labels |
| Calls.CallText | components/BiddingBox.tsx:484 | The entry of every call is non-empty |
| Calls.ParseCall | components/BiddingBox.tsx:99-106 | An entry read back as a call is that call's text |
| Calls.ParseCallText | components/BiddingBox.tsx:484 | Every call is read back from its entry |
| Calls.EntryIndex | components/BiddingBox.tsx:99-107 | An entry with an index starts with a digit and ends with a strain label whose rank is the index's remainder by 5 |
| Calls.EntryIndexOfBid | components/BiddingBox.tsx:107 | The index computed from a bid's entry is the bid's index |
| Calls.CallTextInjective | components/BiddingBox.tsx:484 | Distinct calls are written differently |
| Calls.Encode | pages/index.tsx:164 | The history of an auction has one entry per call, each the call's text |
| Calls.Seat | pages/index.tsx:150 | The seat of call k is in 0..3 |
| BiddingBox.LastContractEntry | components/BiddingBox.tsx:94-96 | The position found holds an entry other than P, X or XX, and every later entry is P, X or XX; none is found iff every entry is P, X or XX |
| BiddingBox.IsValidBid | components/BiddingBox.tsx:93-110 | With no contract bid in the history, or an empty-string last contract entry, every bid is valid; after any other last contract entry a bid is valid exactly when both indices are numbers and the new one is strictly above the last one |
| BiddingBox.LastContractEntryOfEncode | components/BiddingBox.tsx:94-96 | The last entry other than P, X, XX is the position of the last contract bid |
| BiddingBox.ValidBidIsSufficientBid | components/BiddingBox.tsx:93-110 | A bid is valid iff no bid was made yet or it ranks strictly above the last bid (Law 18) |
| BiddingBox.LevelEnabled | components/BiddingBox.tsx:316-319 | For any label, a level button is enabled iff its no-trump bid is valid |
| BiddingBox.AfterRedouble | components/BiddingBox.tsx:178-179 | The history is "after a redouble" iff some entry is XX and every later entry is P |
| BiddingBox.IsOpponentIsOddDistance | components/BiddingBox.tsx:138-145 | The parity test on indices says "opponent" iff the caller is an odd number of calls after the entry |
| BiddingBox.OpponentsIgnoresDealer | components/BiddingBox.tsx:138-146 | Whatever the dealer, two calls come from opposing sides iff they are an odd distance apart |
| BiddingBox.IsDoubleValid | components/BiddingBox.tsx:113-147 | The Double scan returns exactly: a last non-P entry exists, is neither X nor XX, and is an odd distance back |
| BiddingBox.IsRedoubleValid | components/BiddingBox.tsx:150-175 | The Redouble scan returns exactly: the last non-P entry is X and is an odd distance back |
| BiddingBox.DoubleAllowedLaw | components/BiddingBox.tsx:113-147 | When call k is the last non-Pass, Double is allowed iff call k is a bid by an opponent of the caller (Law 19) |
| BiddingBox.RedoubleAllowedLaw | components/BiddingBox.tsx:150-175 | When call k is the last non-Pass, Redouble is allowed iff call k is a Double by an opponent (Law 19) |
| BiddingBox.NoDoubleOverPasses | components/BiddingBox.tsx:115-119 | On an auction of passes only, neither Double nor Redouble is allowed |
| BiddingBox.LastNonPass | components/BiddingBox.tsx:115-118 | The position found holds an entry other than P, and every later entry is P; none is found iff every entry is P |
| BiddingBox.LastNonPassOfEncode | components/BiddingBox.tsx:115-118 | The backward scan over an encoded auction stops at the last call other than Pass |
| BiddingBox.AfterRedoubleNoDoubling | components/BiddingBox.tsx:178-179 | After a Redouble followed only by passes, neither Double nor Redouble is allowed |
| BiddingBox.ActionAvailable | components/BiddingBox.tsx:404-410 | After XX no action is enabled; otherwise Pass always is, and Double/Redouble exactly when their validators hold |
| BiddingBox.Confirm | components/BiddingBox.tsx:476-493 | Confirm is disabled iff no action and no valid bid is selected; a selected valid bid is sent as its call's text even when an action is also selected; otherwise a selected action is sent as its label |
| BiddingBox.DisplayBid | components/BiddingBox.tsx:509-525 | P is shown bold; any other entry keeps its length with C, D, H, S replaced by suit symbols |
| BiddingBox.DisplayDistinguishesCalls | components/BiddingBox.tsx:509-525 | Distinct calls are displayed differently |
| BiddingBox.GridRowCount | components/BiddingBox.tsx:60-82 | At least one row, room for every call, room for the next call while bidding, and no row more than that |
| BiddingBox.FormatRow | components/BiddingBox.tsx:62-71 | The inner loop gives four cells, each a dash before the dealer on the first row, else the padded entry at that position or the empty string |
| BiddingBox.FormatHistory | components/BiddingBox.tsx:56-82 | Rows of four; call k in row (dealer+k) div 4, column (dealer+k) mod 4; dashes before the dealer in row 0; every other cell empty |
| Deck.FullDeck | pages/index.tsx:62-70 | The deck has 52 cards |
| Deck.GenerateDeck | pages/index.tsx:62-70 | The nested loops build the full deck, spades first, ace down |
| Deck.FullDeckAt | pages/index.tsx:64-67 | Card 13 * s + r of the deck has suit s and rank r |
| Deck.DeckPrefixStep | pages/index.tsx:64-67 | Each card pushed by the inner loop is the deck's next card |
| Deck.FullDeckDistinct | pages/index.tsx:62-70 | No card occurs twice in the deck |
| Deck.FullDeckComplete | pages/index.tsx:62-70 | A string is in the deck iff it is a valid card (known suit symbol and rank) |
| Deck.ValidCardInDeck | pages/index.tsx:62-70 | Every valid card (known suit symbol and rank) is in the deck |
| Deck.DeckCardValid | pages/index.tsx:62-70 | Every card of the deck is a valid card |
| Deck.Shuffle | pages/index.tsx:72-79 | For any random draws in range, the shuffle returns a rearrangement of its input |
| Deck.Slice | pages/index.tsx:84-87 | A slice within bounds is the sub-sequence; beyond the end it is cut short |
| Deck.DealHands | pages/index.tsx:84-87 | Each hand has at most 13 cards; from a deck of 52 or more, North, East, South and West get cards 0-12, 13-25, 26-38 and 39-51 |
| Deck.DealCoversDeck | pages/index.tsx:81-88 | The four slices of a 52-card deck have 13 cards each and together are the deck, in order |
| Deck.DealDisjoint | pages/index.tsx:81-88 | For a deck of distinct cards, each card of the deck is in exactly one hand and no other card is in any |
| Deck.RanksOfSuit | pages/index.tsx:41-45 | A suit group has no more entries than the hand |
| Deck.GroupRanks | pages/index.tsx:40-45 | Grouping collects, for each suit, the ranks of the hand's cards of that suit, in hand order |
| Sorting.SortedCopy | pages/index.tsx:49-51 | Sorting a list through an array gives its stable sort by the key; the suit groups of the hand notation use the rank position and those of components/PlayerHand.tsx:30-34 use `CardKey` |
| Deck.SuitSegment | pages/index.tsx:47-57 | A suit's segment is its ranks sorted ace to two and joined, or "x" when the suit is void |
| Deck.FormatHandForAI | pages/index.tsx:32-60 | The notation built is the hand's four suit segments joined by dots |
| Deck.Segment | pages/index.tsx:47-57 | A void suit is written "x"; any other suit is its ranks, rearranged into rank order, joined |
| Deck.HandNotation | pages/index.tsx:53-59 | For a hand of valid cards, the notation splits at its dots into exactly the spade, heart, diamond and club segments |
| Deck.SegmentOfRanks | pages/index.tsx:54-57 | A segment of valid ranks is "x" iff the suit is void, and holds no dot |
| Deck.SegmentSorted | pages/index.tsx:47-51 | A non-void segment lists the suit's ranks ordered ace to two, each as often as it occurs |
| Auction.IsPass | pages/index.tsx:179-182 | A pass has one or four characters and starts with p or P; "P" and "p" are passes |
| Auction.BiddingEnded | pages/index.tsx:184-201 | An ended auction has at least four entries and its last three are passes |
| Auction.IsPassSpelled | pages/index.tsx:179-182 | An entry is a pass iff it is "p" or "pass" in any letter case; the empty entry is not |
| Auction.IsPassOfCall | pages/index.tsx:179-182 | Among call entries only P is a pass |
| Auction.EndedIffLastThreePass | pages/index.tsx:184-201 | The auction is over iff it has at least four entries and the last three are passes; never with fewer than four |
| Auction.EndedOfCalls | pages/index.tsx:184-201 | An auction of calls is over iff it has four calls or more and the last three are Pass |
| Auction.EndingCallLaw | pages/index.tsx:184-201 | On an open auction a call ends it iff it is a third pass in a row; then all four passed or a call precedes the passes (Law 22) |
| Auction.SeatAdvances | pages/index.tsx:169 | Each new entry moves the turn to the next seat clockwise |
| Auction.NormaliseBid | pages/index.tsx:160-163 | Other strings are kept; the result is P, X or XX iff the input was a button label or already a short form |
| Auction.NormaliseAction | pages/index.tsx:160-163 | The Pass, Double and Redouble labels become the entries of those calls |
| Auction.ConfirmedEntryIsCall | components/BiddingBox.tsx:482-493 | Whatever Confirm sends enters the history as the text of a call |
| Auction.Table.constructor | pages/index.tsx:17-23 | Nothing dealt, idle, empty history, dealer North, vulnerability None |
| Auction.Table.CurrentBidder | pages/index.tsx:304 | -1 unless bidding; while bidding, the seat (dealer + length) mod 4 |
| Auction.Table.DealCards | pages/index.tsx:81-96 | Dealing starts bidding with an empty history, hands forming the whole deck, and the drawn dealer and vulnerability |
| Auction.Table.Record | pages/index.tsx:164-175 | One entry is appended; the state turns to playing iff the auction is over; otherwise the next seat's request is queued unless it is South or nothing is dealt |
| Auction.Table.HandleBid | pages/index.tsx:159-176 | The normalised call is appended with the effects of Record; the deal, dealer and vulnerability are kept |
| Auction.Table.HandleBidFromAI | pages/index.tsx:143-157 | The service's call is appended unchanged with the effects of Record, and the table stops waiting |
| PlayerHand.CardKey | components/PlayerHand.tsx:30-33 | The key is -1 exactly when the card's rank is not in the rank order; otherwise it is the position of that rank, 0 (ace) to 12 (two) |
| PlayerHand.Groupable | components/PlayerHand.tsx:21 | Every valid card is kept; a kept card has at least two characters and is valid iff its rank is known |
| PlayerHand.CardsOfSuit | components/PlayerHand.tsx:20-27 | A suit group has no more cards than the hand |
| PlayerHand.CardsOfSuitMembers | components/PlayerHand.tsx:20-27 | A card is in a suit's group iff it is in the hand, has at least two characters and starts with that suit symbol |
| PlayerHand.GroupsPartitionKept | components/PlayerHand.tsx:13-27 | The four groups together hold every kept card exactly as often as the hand does |
| PlayerHand.SortAndGroupHand | components/PlayerHand.tsx:9-38 | Each suit list is the stable sort by rank of that suit's kept cards, in hand order |
| PlayerHand.GroupedIsSortedPartition | components/PlayerHand.tsx:29-35 | Each sorted group is ordered by rank and a rearrangement of its cards; the groups together are the kept cards |
| PlayerHand.NamesCoverCards | components/PlayerHand.tsx:65 | The suit and rank tables know a card iff it is a valid card |
| PlayerHand.ConvertCardToFilename | components/PlayerHand.tsx:41-75 | A valid card maps to /cards/rank_of_suit.png, anything else to /cards/back.png |
| PlayerHand.RankNameShape | components/PlayerHand.tsx:49-63 | Rank names are non-empty and hold no underscore |
| PlayerHand.PrefixBeforeSeparator | components/PlayerHand.tsx:73 | Two underscore-free names followed by texts starting with "_" are equal when the joined texts are |
| PlayerHand.SuitNameInjective | components/PlayerHand.tsx:42-47 | Distinct suits have distinct names |
| PlayerHand.RankNameInjective | components/PlayerHand.tsx:49-63 | Distinct ranks have distinct names |
| PlayerHand.PathParts | components/PlayerHand.tsx:73 | A picture path gives back its rank name and suit name |
| PlayerHand.FilenameInjective | components/PlayerHand.tsx:41-75 | Distinct valid cards get distinct pictures, never the card back |

## Left out

- React rendering, styles, `useState`/`useEffect` wiring and the `setTimeout` delay. The effects of a handler are the new state of `Auction.Table`.
- The call to the bidding service: `callPythonAI`, `fetch` and the pending-call effects (pages/index.tsx:98-141, 203-241). This is network I/O. `Auction.Table.Record` returns the request it would queue instead.
- The `isAIThinking` guard of `callPythonAI`. The model keeps only the flag, which `HandleBidFromAI` clears and `DealCards` resets.
- pages/api/ai-bid.ts is not part of this model; it is an HTTP proxy.
- components/BidInfoPopup.tsx, the suit-info rendering (components/BiddingBox.tsx:182-217), and the `alert`/`apiResponse` fields of history entries. These only display untyped service responses. The history is modelled as its `bid` strings.
- `Math.random`: the shuffle's draws, the dealer and the vulnerability are parameters of `Deck.Shuffle` and `Auction.Table.DealCards`.
- Presentation only:
  - vulnerability colouring (components/BiddingBox.tsx:33-43);
  - highlighting of the bidder's cell (lines 46-52);
  - the running index of filled cells (lines 257-268);
  - `console` output.
- The selection state of the bidding box (selected number, suit and action, and its resetting). `BiddingBox.Confirm` takes the selection as parameters.
- History entries are strings. `undefined` or `null` entries, which `isPass` also rejects, are not modelled.
- Text.ParseInt: does not skip leading whitespace or read a sign as `parseInt` does. Level labels and entries written by the box have neither.
- Text.Lower: folds ASCII letters only. No other letter lower-cases to p, a or s, so `Auction.IsPass` is unaffected.
- Calls.SuitOrder: finds no entry for keys inherited from `Object.prototype` (such as "constructor"), which JavaScript would find. No suit label or call entry ends in such a key. The same holds for the lookups of `PlayerHand.SuitNames` and `PlayerHand.RankNames`.
- Strings are sequences of Unicode characters, not UTF-16 code units. The suit symbols are single code units, so `card[0]` and `slice(1)` agree.
- Deck.Shuffle: states that the result is a rearrangement of the input. It does not state which arrangement a given sequence of draws produces.
- Deck.FormatHandForAI: requires every card to start with a suit symbol, as the `Card` type promises. For any other card the source fails when it pushes into a missing group.
- Sorting: `Array.prototype.sort` is assumed stable, as ECMAScript 2019 requires. The comparators return a difference of positions, so only the key order matters.

=== FILE: auction.dfy ===
/** The table of pages/index.tsx: recognising passes, deciding when the auction is over,
    normalising the calls the bidding box sends, whose turn it is, and the table state that
    dealing and bidding update. */
module Auction {
  import opened Text
  import opened Calls
  import BiddingBox
  import Deck

  /* ---------- Passes and the end of the auction (lines 178-201) ---------- */

  /** `isPass`: "pass" or "p" in any letter case. An empty entry is falsy and is not a pass. */
  function IsPass(bid: string): (r: bool)
    ensures r ==> (|bid| == 1 || |bid| == 4) && IsP(bid[0])
    ensures bid == "P" || bid == "p" ==> r
  {
    if bid == "" then false else Lower(bid) == "pass" || Lower(bid) == "p"
  }

  predicate IsP(c: char) {
    c == 'p' || c == 'P'
  }

  /** `isPass` spelled out: a single p, or the four letters p, a, s, s, each in either case. */
  lemma IsPassSpelled(bid: string)
    ensures IsPass(bid) <==>
              (|bid| == 1 && IsP(bid[0]))
              || (|bid| == 4 && IsP(bid[0]) && (bid[1] == 'a' || bid[1] == 'A')
                  && (bid[2] == 's' || bid[2] == 'S') && (bid[3] == 's' || bid[3] == 'S'))
  {
    if |bid| == 1 {
      assert Lower(bid) == [LowerChar(bid[0])];
    } else if |bid| == 4 {
      assert Lower(bid) == [LowerChar(bid[0]), LowerChar(bid[1]), LowerChar(bid[2]), LowerChar(bid[3])];
    }
  }

  /** Of the strings a call is written as, only "P" is a pass. */
  lemma IsPassOfCall(c: Call)
    ensures IsPass(CallText(c)) <==> c == Pass
  {
    IsPassSpelled(CallText(c));
    if c.Bid? {
      assert CallText(c)[0] == LevelText(c.level)[0];
    }
  }

  predicate AllPass(bids: seq<string>) {
    forall i :: 0 <= i < |bids| ==> IsPass(bids[i])
  }

  /** `biddingEnded`: the last four entries are passes, or the last three are and an entry
      before them is not. */
  function BiddingEnded(bids: seq<string>): (r: bool)
    ensures r ==> |bids| >= 4 && IsPass(bids[|bids| - 1]) && IsPass(bids[|bids| - 2]) && IsPass(bids[|bids| - 3])
  {
    if |bids| >= 4 && AllPass(bids[|bids| - 4..]) then true
    else if |bids| >= 4 && AllPass(bids[|bids| - 3..])
            && exists i :: 0 <= i < |bids| - 3 && !IsPass(bids[i]) then true
    else false
  }

  /** The two cases together say no more than: four entries at least, the last three passes.
      In particular no auction of fewer than four entries is over. */
  lemma EndedIffLastThreePass(bids: seq<string>)
    ensures BiddingEnded(bids) <==>
              |bids| >= 4 && IsPass(bids[|bids| - 1]) && IsPass(bids[|bids| - 2]) && IsPass(bids[|bids| - 3])
  {
    if |bids| >= 4 {
      var n := |bids|;
      if IsPass(bids[n - 1]) && IsPass(bids[n - 2]) && IsPass(bids[n - 3]) {
        if IsPass(bids[n - 4]) {
          assert AllPass(bids[n - 4..]);
        } else {
          assert AllPass(bids[n - 3..]);
        }
      }
      if BiddingEnded(bids) {
        if AllPass(bids[n - 4..]) {
          assert bids[n - 4..][1] == bids[n - 3];
        } else {
          assert bids[n - 3..][0] == bids[n - 3];
        }
      }
    }
  }

  /** On an auction of calls, the end is four calls at least with the last three passes. */
  lemma EndedOfCalls(calls: seq<Call>)
    ensures BiddingEnded(Encode(calls)) <==>
              |calls| >= 4 && calls[|calls| - 1] == Pass && calls[|calls| - 2] == Pass && calls[|calls| - 3] == Pass
  {
    EndedIffLastThreePass(Encode(calls));
    if |calls| >= 4 {
      IsPassOfCall(calls[|calls| - 1]);
      IsPassOfCall(calls[|calls| - 2]);
      IsPassOfCall(calls[|calls| - 3]);
    }
  }

  /** Law 22 on an auction that was still open: the call just made ends it exactly when it is
      a third pass in a row, and then either all four players passed or a call precedes the
      three passes. */
  lemma {:induction false} EndingCallLaw(calls: seq<Call>, c: Call)
    requires !BiddingEnded(Encode(calls))
    ensures BiddingEnded(Encode(calls + [c])) <==>
              c == Pass && |calls| >= 3 && calls[|calls| - 1] == Pass && calls[|calls| - 2] == Pass
    ensures BiddingEnded(Encode(calls + [c])) ==>
              calls + [c] == [Pass, Pass, Pass, Pass] || calls[|calls| - 3] != Pass
  {
    var n := |calls|;
    EndedOfCalls(calls);
    EndedOfCalls(calls + [c]);
    if BiddingEnded(Encode(calls + [c])) && calls[n - 3] == Pass {
      assert n == 3;
      assert calls + [c] == [calls[0], calls[1], calls[2], c];
    }
  }

  /* ---------- Turn order (lines 150, 169, 304) ---------- */

  /** Each new entry moves the turn to the next seat clockwise. */
  lemma SeatAdvances(dealer: nat, n: nat)
    ensures Seat(dealer, n + 1) == (Seat(dealer, n) + 1) % 4
  {
  }

  /* ---------- Normalising a call (lines 159-165) ---------- */

  /** The entry `handleBid` records for what the box sent: the button labels become the
      short forms, any other text is kept as it is. */
  function NormaliseBid(bid: string): (r: string)
    ensures bid !in {"Pass", "Double", "Redouble"} ==> r == bid
    ensures r in {"P", "X", "XX"} <==> bid in {"Pass", "Double", "Redouble", "P", "X", "XX"}
  {
    if bid == "Pass" then "P"
    else if bid == "Double" then "X"
    else if bid == "Redouble" then "XX"
    else bid
  }

  /** The Pass, Double and Redouble buttons become the entries of those calls. */
  function ActionCall(a: BiddingBox.Action): Call {
    match a
    case PassAction => Pass
    case DoubleAction => Double
    case RedoubleAction => Redouble
  }

  lemma NormaliseAction(a: BiddingBox.Action)
    ensures NormaliseBid(BiddingBox.ActionText(a)) == CallText(ActionCall(a))
  {
  }

  /** Whatever the Confirm button sends enters the history as the text of a call: the bid
      chosen, or the call of the action chosen. */
  lemma ConfirmedEntryIsCall(h: seq<string>, number: Option<Level>, suit: Option<Strain>,
                             action: Option<BiddingBox.Action>)
    requires BiddingBox.Confirm(h, number, suit, action).Some?
    ensures ParseCall(NormaliseBid(BiddingBox.Confirm(h, number, suit, action).value)).Some?
  {
    var sent := BiddingBox.Confirm(h, number, suit, action).value;
    if number.Some? && suit.Some?
       && BiddingBox.IsValidBid(h, LevelText(number.value), StrainText(suit.value)) {
      var b := Bid(number.value, suit.value);
      ParseCallText(b);
      assert sent == CallText(b);
      assert sent[0] == LevelText(number.value)[0];
    } else {
      NormaliseAction(action.value);
      ParseCallText(ActionCall(action.value));
    }
  }

  /* ---------- The table (lines 16-23, 81-96, 143-176, 304) ---------- */

  datatype GameState = Idle | Bidding | Playing

  const Vulnerabilities: seq<string> := ["None", "NS", "EW", "Both"]

  /** Four hands of thirteen cards that together are the deck. */
  predicate IsDeal(h: Deck.Hands) {
    |h.north| == 13 && |h.east| == 13 && |h.south| == 13 && |h.west| == 13
    && multiset(h.north + h.east + h.south + h.west) == multiset(Deck.FullDeck())
  }

  /** The hand of the player at `seat` (0 North, 1 East, 2 South, 3 West). */
  function HandAt(h: Deck.Hands, seat: nat): seq<string> {
    if seat == 0 then h.north else if seat == 1 then h.east else if seat == 2 then h.south else h.west
  }

  /** The request queued for the bidding service (`setPendingAICall`): the seat to act, the
      vulnerability, the history so far and that seat's hand. */
  datatype PendingCall = PendingCall(seat: nat, vulnerability: string, history: seq<string>, hand: seq<string>)

  /** The state of the `Home` page that the deal and the auction change. */
  class Table {
    var hands: Option<Deck.Hands>
    var gameState: GameState
    var history: seq<string>
    var vulnerability: string
    var dealer: nat
    var aiThinking: bool

    /** The dealer is a seat, any dealt hands are a deal of the deck, and while the auction
        runs it is not over. */
    ghost predicate Valid()
      reads this
    {
      dealer < 4
      && (hands.Some? ==> IsDeal(hands.value))
      && (gameState == Bidding ==> !BiddingEnded(history))
    }

    /** The initial state: nothing dealt, no history, dealer North, nobody vulnerable. */
    constructor ()
      ensures Valid()
      ensures hands == None && gameState == Idle && history == []
      ensures vulnerability == "None" && dealer == 0 && !aiThinking
    {
      hands := None;
      gameState := Idle;
      history := [];
      vulnerability := "None";
      dealer := 0;
      aiThinking := false;
    }

    /** `currentBidderIndex` (line 304): the seat to act while bidding, -1 otherwise. */
    function CurrentBidder(): (seat: int)
      reads this
      ensures gameState == Bidding <==> seat != -1
      ensures gameState == Bidding ==> 0 <= seat < 4 && seat == (dealer + |history|) % 4
    {
      if gameState == Bidding then Seat(dealer, |history|) else -1
    }

    /** `dealCards`: a fresh shuffled deck cut into four hands, an empty auction, a new dealer
        and vulnerability. `picks` are the shuffle's random indices, `dealerPick` and
        `vulnerabilityPick` the two draws `Math.floor(Math.random() * 4)`. */
    method DealCards(picks: seq<nat>, dealerPick: nat, vulnerabilityPick: nat)
      requires |picks| == 52 && forall i :: 0 < i < 52 ==> picks[i] <= i
      requires dealerPick < 4 && vulnerabilityPick < 4
      modifies this
      ensures Valid()
      ensures hands.Some? && gameState == Bidding && history == [] && !aiThinking
      ensures dealer == dealerPick && vulnerability == Vulnerabilities[vulnerabilityPick]
    {
      var deck := Deck.GenerateDeck();
      deck := Deck.Shuffle(deck, picks);
      Deck.DealCoversDeck(deck);
      hands := Some(Deck.DealHands(deck));
      gameState := Bidding;
      history := [];
      aiThinking := false;
      dealer := dealerPick;
      vulnerability := Vulnerabilities[vulnerabilityPick];
    }

    /** What `handleBid` and `handleBidFromAI` do once the entry is chosen: append it, end
        the auction if it is over, and otherwise queue the next seat for the bidding service
        unless that seat is South or nothing is dealt. */
    method Record(entry: string) returns (pending: Option<PendingCall>)
      requires Valid()
      modifies this
      ensures Valid()
      ensures history == old(history) + [entry]
      ensures gameState == (if BiddingEnded(history) then Playing else old(gameState))
      ensures hands == old(hands) && dealer == old(dealer) && vulnerability == old(vulnerability)
      ensures aiThinking == old(aiThinking)
      ensures pending.Some? <==> !BiddingEnded(history) && Seat(dealer, |history|) != 2 && hands.Some?
      ensures pending.Some? ==> pending.value == PendingCall(Seat(dealer, |history|), vulnerability, history,
                                                             HandAt(hands.value, Seat(dealer, |history|)))
    {
      var updated := history + [entry];
      history := updated;
      pending := None;
      if BiddingEnded(updated) {
        gameState := Playing;
      } else {
        var nextBidderIndex := (dealer + |updated|) % 4;
        if nextBidderIndex != 2 && hands.Some? {
          pending := Some(PendingCall(nextBidderIndex, vulnerability, updated, HandAt(hands.value, nextBidderIndex)));
        }
      }
    }

    /** `handleBid`: the call from the bidding box, normalised, joins the history. */
    method HandleBid(bid: string) returns (pending: Option<PendingCall>)
      requires Valid()
      modifies this
      ensures Valid()
      ensures history == old(history) + [NormaliseBid(bid)]
      ensures gameState == (if BiddingEnded(history) then Playing else old(gameState))
      ensures hands == old(hands) && dealer == old(dealer) && vulnerability == old(vulnerability)
      ensures aiThinking == old(aiThinking)
      ensures pending.Some? <==> !BiddingEnded(history) && Seat(dealer, |history|) != 2 && hands.Some?
      ensures pending.Some? ==> pending.value == PendingCall(Seat(dealer, |history|), vulnerability, history,
                                                             HandAt(hands.value, Seat(dealer, |history|)))
    {
      pending := Record(NormaliseBid(bid));
    }

    /** `handleBidFromAI`: the service's call joins the history as it came, and the table
        stops waiting for the service. */
    method HandleBidFromAI(bid: string) returns (pending: Option<PendingCall>)
      requires Valid()
      modifies this
      ensures Valid()
      ensures history == old(history) + [bid]
      ensures gameState == (if BiddingEnded(history) then Playing else old(gameState))
      ensures hands == old(hands) && dealer == old(dealer) && vulnerability == old(vulnerability)
      ensures !aiThinking
      ensures pending.Some? <==> !BiddingEnded(history) && Seat(dealer, |history|) != 2 && hands.Some?
      ensures pending.Some? ==> pending.value == PendingCall(Seat(dealer, |history|), vulnerability, history,
                                                             HandAt(hands.value, Seat(dealer, |history|)))
    {
      aiThinking := false;
      pending := Record(bid);
    }
  }
}

=== FILE: bidding_box.dfy ===
/** The bidding box of components/BiddingBox.tsx: which calls it offers for a bidding history,
    the string it hands to the table when a call is confirmed, the layout of the history as a
    four-column table and the way a history entry is displayed.  The history is the list of
    strings the table stores; the rules of bridge are stated over `Encode(calls)`. */
module BiddingBox {
  import opened Text
  import opened Calls

  /* ---------- Sufficient bids (Law 18) ---------- */

  /** The entries `isValidBid` looks past when it searches for the last contract bid. */
  predicate NotContractEntry(e: string) {
    e == "P" || e == "X" || e == "XX"
  }

  /** `biddingHistory.filter(bid => !["P", "X", "XX"].includes(bid)).pop()`, as a position. */
  function LastContractEntry(h: seq<string>): (r: Option<nat>)
    ensures r.None? <==> forall i :: 0 <= i < |h| ==> NotContractEntry(h[i])
    ensures r.Some? ==> r.value < |h| && !NotContractEntry(h[r.value])
                        && forall i :: r.value < i < |h| ==> NotContractEntry(h[i])
  {
    LastIndexNot(h, NotContractEntry)
  }

  /** `isValidBid(number, suit)`. With no earlier contract bid (or an empty-string entry, which
      JavaScript treats as absent) any bid is accepted; otherwise the new bid's index must be
      strictly above the last one's. An index JavaScript computes as NaN compares false. */
  function IsValidBid(h: seq<string>, number: string, suit: string): (r: bool)
    ensures (forall i :: 0 <= i < |h| ==> NotContractEntry(h[i])) ==> r
    ensures GetBidIndex(number, suit).None? ==>
              (r <==> LastContractEntry(h).None? || h[LastContractEntry(h).value] == "")
    ensures LastContractEntry(h).None? || h[LastContractEntry(h).value] == "" ==> r
    ensures LastContractEntry(h).Some? && h[LastContractEntry(h).value] != "" ==>
              (r <==> GetBidIndex(number, suit).Some? && EntryIndex(h[LastContractEntry(h).value]).Some?
                      && GetBidIndex(number, suit).value > EntryIndex(h[LastContractEntry(h).value]).value)
  {
    match LastContractEntry(h)
    case None => true
    case Some(k) =>
      h[k] == ""
      || match (GetBidIndex(number, suit), EntryIndex(h[k]))
         case (Some(proposed), Some(last)) => proposed > last
         case _ => false
  }

  predicate NotBid(c: Call) {
    !c.Bid?
  }

  /** Law 18 over calls: a bid must rank above the last bid of the auction, if there is one. */
  predicate SufficientBid(calls: seq<Call>, l: Level, s: Strain) {
    match LastIndexNot(calls, NotBid)
    case None => true
    case Some(k) => BidIndex(l, s) > BidIndex(calls[k].level, calls[k].strain)
  }

  /** The last contract entry of an encoded auction is the entry of its last bid. */
  lemma LastContractEntryOfEncode(calls: seq<Call>)
    ensures LastContractEntry(Encode(calls)) == LastIndexNot(calls, NotBid)
  {
    var h := Encode(calls);
    forall i | 0 <= i < |calls| ensures NotContractEntry(h[i]) == NotBid(calls[i]) {
      assert h[i] == CallText(calls[i]);
      if calls[i].Bid? {
        assert |CallText(calls[i])| >= 2;
        assert CallText(calls[i]) != "XX" by {
          assert CallText(calls[i])[0] != 'X';
        }
      }
    }
    LastIndexNotTransfer(h, calls, NotContractEntry, NotBid);
  }

  /** `isValidBid` on the button labels decides exactly Law 18: equal or lower is refused,
      and P, X and XX entries are looked past. */
  lemma ValidBidIsSufficientBid(calls: seq<Call>, l: Level, s: Strain)
    ensures IsValidBid(Encode(calls), LevelText(l), StrainText(s)) <==> SufficientBid(calls, l, s)
  {
    LastContractEntryOfEncode(calls);
    GetBidIndexOfLabels(l, s);
    match LastIndexNot(calls, NotBid)
    case None =>
    case Some(k) =>
      EntryIndexOfBid(calls[k].level, calls[k].strain);
  }

  /** The suit button labels, in the order the box shows them. */
  const SuitLabels: seq<string> := ["C", "D", "H", "S", "NT"]

  /** Line 318: a level button is enabled when some suit at that level is a valid bid. That
      is the case exactly when its no-trump bid is valid, no-trump being the highest strain
      of a level. */
  function LevelEnabled(h: seq<string>, number: string): (r: bool)
    ensures r <==> IsValidBid(h, number, "NT")
  {
    assert SuitLabels[4] == "NT";
    exists i :: 0 <= i < |SuitLabels| && IsValidBid(h, number, SuitLabels[i])
  }

  /* ---------- Double and Redouble (Law 19) ---------- */

  predicate IsPassEntry(e: string) {
    e == "P"
  }

  /** Position of the last entry that is not exactly "P". */
  function LastNonPass(h: seq<string>): (r: Option<nat>)
    ensures r.None? <==> forall i :: 0 <= i < |h| ==> h[i] == "P"
    ensures r.Some? ==> r.value < |h| && h[r.value] != "P" && forall i :: r.value < i < |h| ==> h[i] == "P"
  {
    LastIndexNot(h, IsPassEntry)
  }

  /** What `isDoubleValid` decides, stated without its redundant tests: the last entry other
      than "P" exists, is neither "X" nor "XX", and lies an odd number of calls back, i.e. it
      was made by the side not on turn. */
  predicate DoubleAllowed(h: seq<string>) {
    match LastNonPass(h)
    case None => false
    case Some(k) => h[k] != "X" && h[k] != "XX" && (|h| - k) % 2 == 1
  }

  /** What `isRedoubleValid` decides: the last entry other than "P" is "X", made by the
      side not on turn. */
  predicate RedoubleAllowed(h: seq<string>) {
    match LastNonPass(h)
    case None => false
    case Some(k) => h[k] == "X" && (|h| - k) % 2 == 1
  }

  /** Lines 178-179: the last entry other than "P" is "XX". */
  function AfterRedouble(h: seq<string>): (r: bool)
    ensures r <==> exists k :: 0 <= k < |h| && h[k] == "XX" && forall i :: k < i < |h| ==> h[i] == "P"
  {
    match LastNonPass(h)
    case None => false
    case Some(k) => h[k] == "XX"
  }

  /** The side test of lines 138-145 and 166-173: `lastBidder % 2` differs from
      `currentBidder % 2`, both seats counted from index 0. */
  predicate IsOpponentAsWritten(k: nat, n: nat) {
    var lastBidder := k % 4;
    var currentBidder := n % 4;
    (lastBidder % 2 == 0 && currentBidder % 2 == 1) || (lastBidder % 2 == 1 && currentBidder % 2 == 0)
  }

  /** The side test looks only at how far back the call was: an odd distance. */
  lemma {:induction false} IsOpponentIsOddDistance(k: nat, n: nat)
    requires k < n
    ensures IsOpponentAsWritten(k, n) <==> (n - k) % 2 == 1
  {
    Mod4Parity(k);
    Mod4Parity(n);
    ParityOfDistance(k, n);
  }

  /** Whatever seat dealt, the seat of call k and the seat on turn are opponents exactly when
      the distance between them is odd: the raw-index test does not depend on the dealer. */
  lemma {:induction false} OpponentsIgnoresDealer(dealer: nat, k: nat, n: nat)
    requires k < n
    ensures Opponents(Seat(dealer, k), Seat(dealer, n)) <==> (n - k) % 2 == 1
  {
    Mod4Parity(dealer + k);
    Mod4Parity(dealer + n);
    ParityOfDistance(dealer + k, dealer + n);
  }

  lemma ModTwo(x: int, q: int, b: int)
    requires 0 <= b < 2 && x == 2 * q + b
    ensures x % 2 == b
  {
  }

  lemma Mod4Parity(x: nat)
    ensures x % 4 % 2 == x % 2
  {
    var q, r := x / 4, x % 4;
    assert x == 4 * q + r;
    ModTwo(r, r / 2, r % 2);
    ModTwo(x, 2 * q + r / 2, r % 2);
  }

  lemma ParityOfDistance(a: nat, b: nat)
    requires a < b
    ensures a % 2 != b % 2 <==> (b - a) % 2 == 1
  {
    var p, u := a / 2, a % 2;
    var p', v := b / 2, b % 2;
    assert a == 2 * p + u && b == 2 * p' + v;
    if u == v {
      ModTwo(b - a, p' - p, 0);
    } else if u < v {
      ModTwo(b - a, p' - p, 1);
    } else {
      ModTwo(b - a, p' - p - 1, 1);
    }
  }

  /** `isDoubleValid` (lines 113-147). */
  method IsDoubleValid(h: seq<string>) returns (ok: bool)
    ensures ok == DoubleAllowed(h)
  {
    var lastIdx := |h| - 1;
    while lastIdx >= 0 && h[lastIdx] == "P"
      invariant -1 <= lastIdx < |h|
      invariant forall i :: lastIdx < i < |h| ==> h[i] == "P"
    {
      lastIdx := lastIdx - 1;
    }
    if lastIdx < 0 {
      return false;
    }
    var lastBid := h[lastIdx];
    if lastBid == "XX" || lastBid == "X" {
      return false;
    }
    // Lines 125-130 repeat the test above: this branch is never taken.
    if lastBid == "X" || lastBid == "XX" {
      assert false;
    }
    // Lines 132-136: every entry after `lastIdx` is "P", so this loop never returns.
    for i := lastIdx + 1 to |h| {
      if h[i] != "P" {
        assert false;
      }
    }
    IsOpponentIsOddDistance(lastIdx, |h|);
    return IsOpponentAsWritten(lastIdx, |h|);
  }

  /** `isRedoubleValid` (lines 150-175). */
  method IsRedoubleValid(h: seq<string>) returns (ok: bool)
    ensures ok == RedoubleAllowed(h)
  {
    var lastNonPassIndex := -1;
    for i := |h| downto 0
      invariant lastNonPassIndex == -1
      invariant forall j :: i <= j < |h| ==> h[j] == "P"
    {
      if h[i] != "P" {
        lastNonPassIndex := i;
        break;
      }
    }
    if lastNonPassIndex == -1 {
      return false;
    }
    if h[lastNonPassIndex] != "X" {
      return false;
    }
    // Line 164: the entry is "X" here, so it is never "XX".
    if h[lastNonPassIndex] == "XX" {
      assert false;
    }
    IsOpponentIsOddDistance(lastNonPassIndex, |h|);
    return IsOpponentAsWritten(lastNonPassIndex, |h|);
  }

  /** Law 19 over calls: when call k is the last one other than Pass, a Double is allowed
      exactly when call k is a bid made by an opponent of the seat on turn. */
  lemma DoubleAllowedLaw(calls: seq<Call>, dealer: nat, k: nat)
    requires k < |calls| && calls[k] != Pass
    requires forall i :: k < i < |calls| ==> calls[i] == Pass
    ensures DoubleAllowed(Encode(calls))
            <==> calls[k].Bid? && Opponents(Seat(dealer, k), Seat(dealer, |calls|))
  {
    LastNonPassOfEncode(calls, k);
    OpponentsIgnoresDealer(dealer, k, |calls|);
    if calls[k].Bid? {
      assert CallText(calls[k]) != "XX" by {
        assert CallText(calls[k])[0] != 'X';
      }
    }
  }

  /** Law 19 over calls: when call k is the last one other than Pass, a Redouble is allowed
      exactly when call k is a Double made by an opponent of the seat on turn. */
  lemma RedoubleAllowedLaw(calls: seq<Call>, dealer: nat, k: nat)
    requires k < |calls| && calls[k] != Pass
    requires forall i :: k < i < |calls| ==> calls[i] == Pass
    ensures RedoubleAllowed(Encode(calls))
            <==> calls[k] == Double && Opponents(Seat(dealer, k), Seat(dealer, |calls|))
  {
    LastNonPassOfEncode(calls, k);
    OpponentsIgnoresDealer(dealer, k, |calls|);
    if CallText(calls[k]) == "X" {
      ParseCallText(calls[k]);
    }
  }

  /** Neither Double nor Redouble is allowed before a call other than Pass has been made. */
  lemma NoDoubleOverPasses(calls: seq<Call>)
    requires forall i :: 0 <= i < |calls| ==> calls[i] == Pass
    ensures !DoubleAllowed(Encode(calls)) && !RedoubleAllowed(Encode(calls))
  {
    assert LastNonPass(Encode(calls)) == None;
  }

  lemma LastNonPassOfEncode(calls: seq<Call>, k: nat)
    requires k < |calls| && calls[k] != Pass
    requires forall i :: k < i < |calls| ==> calls[i] == Pass
    ensures LastNonPass(Encode(calls)) == Some(k)
  {
    var h := Encode(calls);
    assert h[k] != "P" by {
      if h[k] == "P" {
        ParseCallText(calls[k]);
      }
    }
  }

  /** Double and Redouble are never allowed straight after a Redouble (only passes since). */
  lemma AfterRedoubleNoDoubling(h: seq<string>)
    requires AfterRedouble(h)
    ensures !DoubleAllowed(h) && !RedoubleAllowed(h)
  {
  }

  /* ---------- The action buttons ---------- */

  datatype Action = PassAction | DoubleAction | RedoubleAction

  /** The action button labels, which the box hands over as they are. */
  function ActionText(a: Action): string {
    match a
    case PassAction => "Pass"
    case DoubleAction => "Double"
    case RedoubleAction => "Redouble"
  }

  /** Lines 405-410: whether an action button is enabled. After a Redouble every action,
      Pass included, is disabled; otherwise Pass is always enabled and Double and Redouble
      follow their validators. */
  method ActionAvailable(h: seq<string>, action: Action) returns (available: bool)
    ensures AfterRedouble(h) ==> !available
    ensures !AfterRedouble(h) && action == PassAction ==> available
    ensures !AfterRedouble(h) && action == DoubleAction ==> (available <==> DoubleAllowed(h))
    ensures !AfterRedouble(h) && action == RedoubleAction ==> (available <==> RedoubleAllowed(h))
  {
    var afterRedouble := false;
    var lastNonPass := LastNonPass(h);
    if lastNonPass.Some? {
      afterRedouble := h[lastNonPass.value] == "XX";
    }
    var doubleValid := IsDoubleValid(h);
    var redoubleValid := IsRedoubleValid(h);
    available :=
      !afterRedouble &&
      !((action == DoubleAction && !doubleValid) || (action == RedoubleAction && !redoubleValid));
  }

  /** A level and a suit are selected and together form a valid bid. */
  predicate BidSelected(h: seq<string>, number: Option<Level>, suit: Option<Strain>) {
    number.Some? && suit.Some? && IsValidBid(h, LevelText(number.value), StrainText(suit.value))
  }

  /** Lines 476-493: what the Confirm button sends, or None while it is disabled. A selected
      level and suit forming a valid bid win over a selected action. */
  function Confirm(h: seq<string>, number: Option<Level>, suit: Option<Strain>, action: Option<Action>)
    : (r: Option<string>)
    ensures r.None? <==> (action.None? && !BidSelected(h, number, suit))
    ensures BidSelected(h, number, suit) ==>
              r == Some(CallText(Bid(number.value, suit.value)))
              && ParseCall(r.value) == Some(Bid(number.value, suit.value))
    ensures !BidSelected(h, number, suit) && action.Some? ==> r == Some(ActionText(action.value))
  {
    if BidSelected(h, number, suit) then
      ParseCallText(Bid(number.value, suit.value));
      Some(LevelText(number.value) + StrainText(suit.value))
    else if action.Some? then Some(ActionText(action.value))
    else None
  }

  /* ---------- Display of a history entry ---------- */

  datatype Shown = Bold(text: string) | Plain(text: string)

  function SuitIcon(c: char): char {
    if c == 'C' then '♣'
    else if c == 'D' then '♦'
    else if c == 'H' then '♥'
    else if c == 'S' then '♠'
    else c
  }

  /** `fotmatBidForDisplay`: "P" in bold; otherwise every C, D, H and S replaced by its suit
      symbol. The four replacements never produce a letter the next one looks for, so doing
      them one after the other is the same as replacing each character once. */
  function DisplayBid(bid: string): (r: Shown)
    ensures r.Bold? <==> bid == "P"
    ensures |r.text| == |bid|
    ensures bid != "P" ==> forall i :: 0 <= i < |bid| ==> r.text[i] == SuitIcon(bid[i])
  {
    if bid == "P" then Bold("P")
    else Plain(seq(|bid|, i requires 0 <= i < |bid| => SuitIcon(bid[i])))
  }

  predicate AsciiText(s: string) {
    forall i :: 0 <= i < |s| ==> s[i] as int < 128
  }

  /** Distinct calls are displayed differently. */
  lemma DisplayDistinguishesCalls(c1: Call, c2: Call)
    requires DisplayBid(CallText(c1)) == DisplayBid(CallText(c2))
    ensures c1 == c2
  {
    var t1, t2 := CallText(c1), CallText(c2);
    var d1, d2 := DisplayBid(t1), DisplayBid(t2);
    CallTextAscii(c1);
    CallTextAscii(c2);
    if t1 != "P" {
      assert t2 != "P" && |t1| == |t2|;
      forall i | 0 <= i < |t1| ensures t1[i] == t2[i] {
        assert d1.text[i] == SuitIcon(t1[i]) && d2.text[i] == SuitIcon(t2[i]);
        SuitIconInjective(t1[i], t2[i]);
      }
      assert t1 == t2;
    }
    CallTextInjective(c1, c2);
  }

  lemma CallTextAscii(c: Call)
    ensures AsciiText(CallText(c))
  {
  }

  lemma SuitIconInjective(a: char, b: char)
    requires a as int < 128 && b as int < 128 && SuitIcon(a) == SuitIcon(b)
    ensures a == b
  {
  }

  /* ---------- The history table (lines 56-82) ---------- */

  /** The text of cell (i, j) of the table laid out from `padded`, the history preceded by
      `dealer` empty entries: a dash in the first row before the dealer, otherwise the entry
      at that place or "" beyond the end. */
  function CellText(padded: seq<string>, dealer: nat, i: nat, j: nat): string {
    if i == 0 && j < dealer then "—"
    else if i * 4 + j < |padded| then padded[i * 4 + j]
    else ""
  }

  /** The number of rows: at least one, enough for every call made and, while the auction is
      being bid, for the cell of the call to come. */
  function GridRowCount(dealer: nat, n: nat, active: bool): (rows: nat)
    ensures rows >= 1
    ensures dealer + n <= 4 * rows
    ensures active ==> dealer + n < 4 * rows
    ensures rows > 1 ==> 4 * (rows - 1) < dealer + n + (if active then 1 else 0)
  {
    var padded := dealer + n;
    var base := if padded == 0 then 1 else (padded + 3) / 4;
    base + (if active && padded % 4 == 0 && padded != 0 then 1 else 0)
  }

  /** Lays the history out in rows of four, one column per seat. `currentBidder` is -1 when
      the auction is only shown, not being bid. */
  method FormatHistory(h: seq<string>, dealer: nat, currentBidder: int) returns (rows: seq<seq<string>>)
    ensures |rows| == GridRowCount(dealer, |h|, currentBidder != -1)
    ensures forall i :: 0 <= i < |rows| ==> |rows[i]| == 4
    ensures forall k :: 0 <= k < |h| ==> rows[(dealer + k) / 4][(dealer + k) % 4] == h[k]
    ensures forall j :: 0 <= j < 4 && j < dealer ==> rows[0][j] == "—"
    ensures forall i, j ::
              (0 <= i < |rows| && 0 <= j < 4 && !(i == 0 && j < dealer) && !(dealer <= 4 * i + j < dealer + |h|))
              ==> rows[i][j] == ""
  {
    var padded := seq(dealer, _ => "") + h;
    var formatted: seq<seq<string>> := [];
    var totalRows := if |padded| == 0 then 1 else (|padded| + 3) / 4;
    for i := 0 to totalRows
      invariant |formatted| == i
      invariant forall r :: 0 <= r < i ==> |formatted[r]| == 4
      invariant forall r, j :: 0 <= r < i && 0 <= j < 4 ==> formatted[r][j] == CellText(padded, dealer, r, j)
    {
      var row := FormatRow(padded, dealer, i);
      formatted := formatted + [row];
    }
    if currentBidder != -1 && (|formatted| == 0 || (|padded| % 4 == 0 && |padded| != 0)) {
      assert totalRows * 4 == |padded|;
      formatted := formatted + [["", "", "", ""]];
    }
    rows := formatted;
    assert forall r :: 0 <= r < |rows| ==> |rows[r]| == 4;
    assert forall r, j :: 0 <= r < |rows| && 0 <= j < 4 ==> rows[r][j] == CellText(padded, dealer, r, j);
    forall k | 0 <= k < |h| ensures rows[(dealer + k) / 4][(dealer + k) % 4] == h[k] {
      CellOfEntry(h, dealer, k);
    }
  }

  /** One row of the table: the four cells of row `i`. */
  method FormatRow(padded: seq<string>, dealer: nat, i: nat) returns (row: seq<string>)
    ensures |row| == 4
    ensures forall c :: 0 <= c < 4 ==> row[c] == CellText(padded, dealer, i, c)
  {
    row := [];
    for j := 0 to 4
      invariant |row| == j
      invariant forall c :: 0 <= c < j ==> row[c] == CellText(padded, dealer, i, c)
    {
      var bidIndex := i * 4 + j;
      if i == 0 && j < dealer {
        row := row + ["—"];
      } else {
        // `paddedHistory[bidIndex] || ""`
        row := row + [if bidIndex < |padded| then padded[bidIndex] else ""];
      }
    }
  }

  /** Call `k` of the history sits in the cell `dealer + k` places from the top left. */
  lemma CellOfEntry(h: seq<string>, dealer: nat, k: nat)
    requires k < |h|
    ensures (dealer + k) / 4 < (dealer + |h| + 3) / 4
    ensures CellText(seq(dealer, _ => "") + h, dealer, (dealer + k) / 4, (dealer + k) % 4) == h[k]
  {
    var m := dealer + k;
    var q, r := m / 4, m % 4;
    assert q * 4 + r == m;
    assert !(q == 0 && r < dealer);
  }
}

=== FILE: calls.dfy ===
/** Calls of the auction and the strings that stand for them in the bidding history
    (components/BiddingBox.tsx lines 22-23 and 84-110, line 484; pages/index.tsx lines 160-163).
    A contract bid is written as its level digit followed by "C", "D", "H", "S" or "NT";
    Pass, Double and Redouble are written "P", "X" and "XX". */
module Calls {
  import opened Text

  datatype Strain = Clubs | Diamonds | Hearts | Spades | NoTrump

  type Level = l: int | 1 <= l <= 7 witness 1

  datatype Call = Bid(level: Level, strain: Strain) | Pass | Double | Redouble

  /** `suitOrder`: clubs lowest, no-trump highest. */
  function StrainRank(s: Strain): (r: nat)
    ensures r < 5
  {
    match s
    case Clubs => 0
    case Diamonds => 1
    case Hearts => 2
    case Spades => 3
    case NoTrump => 4
  }

  /** The suit button labels "C", "D", "H", "S", "NT". */
  function StrainText(s: Strain): string {
    match s
    case Clubs => "C"
    case Diamonds => "D"
    case Hearts => "H"
    case Spades => "S"
    case NoTrump => "NT"
  }

  /** The level button labels "1" to "7". */
  function LevelText(l: Level): (r: string)
    ensures |r| == 1 && IsDigit(r[0]) && DigitValue(r[0]) == l
  {
    [('0' as int + l) as char]
  }

  /** `suitOrder[suit]` on an arbitrary key: None where JavaScript finds no entry. */
  function SuitOrder(suit: string): (r: Option<nat>)
    ensures r.Some? <==> exists s :: StrainText(s) == suit
    ensures forall s :: StrainText(s) == suit ==> r == Some(StrainRank(s))
  {
    if suit == "C" then assert StrainText(Clubs) == suit; Some(0)
    else if suit == "D" then assert StrainText(Diamonds) == suit; Some(1)
    else if suit == "H" then assert StrainText(Hearts) == suit; Some(2)
    else if suit == "S" then assert StrainText(Spades) == suit; Some(3)
    else if suit == "NT" then assert StrainText(NoTrump) == suit; Some(4)
    else None
  }

  /** `getBidIndex(number, suit)`: None stands for the NaN JavaScript computes when the
      number does not parse or the suit is not a key of `suitOrder`. */
  function GetBidIndex(number: string, suit: string): (r: Option<int>)
    ensures r.None? <==> |number| == 0 || !IsDigit(number[0]) || !(exists s :: StrainText(s) == suit)
    ensures r.Some? ==> r.value / 5 == ParseInt(number).value - 1 && r.value % 5 == SuitOrder(suit).value
  {
    match (ParseInt(number), SuitOrder(suit))
    case (Some(n), Some(o)) => Some((n - 1) * 5 + o)
    case _ => None
  }

  /** The position of a contract bid in the order of all 35 bids. The index determines level
      and strain (quotient and remainder by 5), so distinct bids get distinct indices. */
  function BidIndex(l: Level, s: Strain): (r: nat)
    ensures r < 35
    ensures r / 5 == l - 1 && r % 5 == StrainRank(s)
  {
    (l - 1) * 5 + StrainRank(s)
  }

  /** Bids are ordered by level first, then by strain. */
  lemma {:induction false} BidIndexOrder(l1: Level, s1: Strain, l2: Level, s2: Strain)
    ensures BidIndex(l1, s1) < BidIndex(l2, s2)
            <==> l1 < l2 || (l1 == l2 && StrainRank(s1) < StrainRank(s2))
  {
    var i1, i2 := BidIndex(l1, s1), BidIndex(l2, s2);
    assert i1 == 5 * (l1 - 1) + StrainRank(s1);
    assert i2 == 5 * (l2 - 1) + StrainRank(s2);
  }

  lemma BidIndexInjective(l1: Level, s1: Strain, l2: Level, s2: Strain)
    requires BidIndex(l1, s1) == BidIndex(l2, s2)
    ensures l1 == l2 && s1 == s2
  {
  }

  /** Every index 0..34 is the index of some bid: the 35 bid buttons cover the whole range. */
  lemma BidIndexOnto(i: int)
    requires 0 <= i < 35
    ensures exists l: Level, s: Strain :: BidIndex(l, s) == i
  {
    var l: Level := i / 5 + 1;
    var s := [Clubs, Diamonds, Hearts, Spades, NoTrump][i % 5];
    assert StrainRank(s) == i % 5;
    assert BidIndex(l, s) == i;
  }

  /** `getBidIndex` on the labels of the level and suit buttons is the bid's index. */
  lemma GetBidIndexOfLabels(l: Level, s: Strain)
    ensures GetBidIndex(LevelText(l), StrainText(s)) == Some(BidIndex(l, s))
  {
    var t := LevelText(l);
    assert LeadingDigits(t) == t;
    assert DigitsValue(t) == DigitsValue(t[..0]) * 10 + DigitValue(t[0]);
  }

  /** Lines 99-106: split a history entry into its number part and its suit part. */
  function SplitBid(b: string): (r: (string, string))
    ensures r.0 + r.1 == b
  {
    if EndsWith(b, "NT") then (b[..|b| - 2], "NT")
    else if |b| == 0 then ("", "")
    else (b[..|b| - 1], b[|b| - 1..])
  }

  /** The index `isValidBid` computes for a history entry (line 107). */
  function EntryIndex(b: string): (r: Option<int>)
    ensures r.Some? ==> |b| > 0 && IsDigit(b[0])
    ensures r.Some? ==> exists s :: |StrainText(s)| < |b| && b[|b| - |StrainText(s)|..] == StrainText(s)
                                    && r.value % 5 == StrainRank(s)
  {
    var number, suit := SplitBid(b).0, SplitBid(b).1;
    var r := GetBidIndex(number, suit);
    assert r.Some? ==> exists s :: |StrainText(s)| < |b| && b[|b| - |StrainText(s)|..] == StrainText(s)
                                   && r.value % 5 == StrainRank(s) by {
      if r.Some? {
        var s :| StrainText(s) == suit;
        assert b[|b| - |suit|..] == suit;
      }
    }
    assert r.Some? ==> b[0] == number[0];
    r
  }

  /** The history entry a call becomes: the confirm button sends number + suit (line 484)
      and pages/index.tsx rewrites "Pass", "Double", "Redouble" as "P", "X", "XX". */
  function CallText(c: Call): (r: string)
    ensures |r| > 0
  {
    match c
    case Bid(l, s) => LevelText(l) + StrainText(s)
    case Pass => "P"
    case Double => "X"
    case Redouble => "XX"
  }

  /** Reads a history entry back as a call; None for a string no call is written as. */
  function ParseCall(e: string): (r: Option<Call>)
    ensures r.Some? ==> CallText(r.value) == e
  {
    if e == "P" then Some(Pass)
    else if e == "X" then Some(Double)
    else if e == "XX" then Some(Redouble)
    else
      var (number, suit) := SplitBid(e);
      if |number| == 1 && '1' <= number[0] <= '7' then
        var l: Level := number[0] as int - '0' as int;
        assert LevelText(l) == number;
        if suit == "C" then Some(Bid(l, Clubs))
        else if suit == "D" then Some(Bid(l, Diamonds))
        else if suit == "H" then Some(Bid(l, Hearts))
        else if suit == "S" then Some(Bid(l, Spades))
        else if suit == "NT" then Some(Bid(l, NoTrump))
        else None
      else None
  }

  /** Round trip: number + suit, split again by lines 99-106, gives back the two labels. */
  lemma SplitBidOfLabels(l: Level, s: Strain)
    ensures SplitBid(LevelText(l) + StrainText(s)) == (LevelText(l), StrainText(s))
  {
    var b := LevelText(l) + StrainText(s);
    if s == NoTrump {
      assert b[|b| - 2..] == "NT";
    } else {
      assert b[|b| - 2] == LevelText(l)[0];
      assert !EndsWith(b, "NT");
      assert b[..|b| - 1] == LevelText(l);
    }
  }

  /** Round trip: every call is read back from its history entry. */
  lemma ParseCallText(c: Call)
    ensures ParseCall(CallText(c)) == Some(c)
  {
    if c.Bid? {
      ParseBidText(c.level, c.strain);
    }
  }

  lemma ParseBidText(l: Level, s: Strain)
    ensures ParseCall(LevelText(l) + StrainText(s)) == Some(Bid(l, s))
  {
    var e := LevelText(l) + StrainText(s);
    assert e[0] == LevelText(l)[0];
    assert e != "P" && e != "X" && e != "XX";
    SplitBidOfLabels(l, s);
    var number := LevelText(l);
    assert number[0] as int - '0' as int == l;
  }

  /** A contract bid's entry yields the bid's own index. */
  lemma EntryIndexOfBid(l: Level, s: Strain)
    ensures EntryIndex(CallText(Bid(l, s))) == Some(BidIndex(l, s))
  {
    SplitBidOfLabels(l, s);
    GetBidIndexOfLabels(l, s);
  }

  /** Distinct calls are written differently. */
  lemma CallTextInjective(c1: Call, c2: Call)
    requires CallText(c1) == CallText(c2)
    ensures c1 == c2
  {
    ParseCallText(c1);
    ParseCallText(c2);
  }

  /** The history an auction of calls produces. */
  function Encode(calls: seq<Call>): (h: seq<string>)
    ensures |h| == |calls|
    ensures forall i :: 0 <= i < |calls| ==> h[i] == CallText(calls[i])
  {
    seq(|calls|, i requires 0 <= i < |calls| => CallText(calls[i]))
  }

  /** The seat (0 North, 1 East, 2 South, 3 West) that makes call number `k` of an auction
      dealt by `dealer`; for `k` the length of the history it is the seat to act. */
  function Seat(dealer: nat, k: nat): (s: nat)
    ensures s < 4
  {
    (dealer + k) % 4
  }

  /** North-South against East-West: seats of different parity. */
  predicate Opponents(a: nat, b: nat) {
    a % 2 != b % 2
  }
}

=== FILE: cards.dfy ===
/** The suit symbols and rank names shared by the deck, the hand notation and the hand display
    (pages/index.tsx lines 25-26 and 48, components/PlayerHand.tsx lines 10-11). A card is a
    string: one suit symbol followed by a rank name, e.g. "♠A" or "♥10". */
module Cards {

  /** Suits in the order the table lists them: spades, hearts, diamonds, clubs. */
  const Suits: seq<char> := ['♠', '♥', '♦', '♣']

  /** Ranks from the highest to the lowest. */
  const Ranks: seq<string> := ["A", "K", "Q", "J", "10", "9", "8", "7", "6", "5", "4", "3", "2"]

  /** `s.indexOf(x)`: the first position of `x` in `s`, or -1 when it does not occur. */
  function IndexOf<T(==)>(s: seq<T>, x: T): (r: int)
    ensures -1 <= r < |s|
    ensures r == -1 <==> x !in s
    ensures r >= 0 ==> s[r] == x && x !in s[..r]
  {
    if |s| == 0 then -1
    else if s[0] == x then 0
    else
      var r := IndexOf(s[1..], x);
      assert r >= 0 ==> s[1..][..r] == s[1..r + 1];
      if r == -1 then -1 else r + 1
  }

  /** `rankOrder.indexOf(rank)`: 0 for the ace up to 12 for the two, -1 for anything else. */
  function RankIndex(rank: string): (r: int)
    ensures -1 <= r < |Ranks|
    ensures r == -1 <==> rank !in Ranks
    ensures r >= 0 ==> Ranks[r] == rank
  {
    IndexOf(Ranks, rank)
  }

  /** A card the `Card` type of pages/index.tsx admits: a suit symbol then a known rank. */
  predicate ValidCard(c: string) {
    |c| >= 2 && c[0] in Suits && c[1..] in Ranks
  }

  /** The card with suit symbol `suit` and rank `rank` (template `${suit}${rank}`). */
  function MakeCard(suit: char, rank: string): (c: string)
    ensures |c| == |rank| + 1 && c[0] == suit && c[1..] == rank
  {
    [suit] + rank
  }

  /** No rank name is empty. */
  lemma RanksNonEmpty()
    ensures "" !in Ranks
  {
    forall i | 0 <= i < |Ranks| ensures |Ranks[i]| > 0 {
    }
  }

  /** Rank position is a bijection between `Ranks` and 0..12. */
  lemma RankIndexOfRank(k: nat)
    requires k < |Ranks|
    ensures RankIndex(Ranks[k]) == k
  {
    assert Ranks[k] !in Ranks[..k];
  }

  /** Distinct known ranks sort to distinct positions. */
  lemma RankIndexInjective(a: string, b: string)
    requires a in Ranks && b in Ranks && RankIndex(a) == RankIndex(b)
    ensures a == b
  {
  }
}

=== FILE: deck.dfy ===
/** Dealing in pages/index.tsx: building the 52-card deck, the Fisher-Yates shuffle, cutting
    the shuffled deck into four hands, and writing a hand in the dotted notation the bidding
    service reads. The random numbers the source draws are parameters here. */
module Deck {
  import opened Text
  import opened Cards
  import opened Sorting

  /* ---------- The deck (lines 62-70) ---------- */

  /** The deck `generateDeck` builds: the thirteen spades from the ace down, then the hearts,
      the diamonds and the clubs. */
  function FullDeck(): (d: seq<string>)
    ensures |d| == 52
  {
    seq(52, i requires 0 <= i < 52 => MakeCard(Suits[i / 13], Ranks[i % 13]))
  }

  /** `generateDeck`: one card per suit and rank, suits in the outer loop. */
  method GenerateDeck() returns (deck: seq<string>)
    ensures deck == FullDeck()
  {
    deck := [];
    for s := 0 to |Suits|
      invariant deck == FullDeck()[..13 * s]
    {
      for r := 0 to |Ranks|
        invariant deck == FullDeck()[..13 * s + r]
      {
        DeckPrefixStep(s, r);
        deck := deck + [MakeCard(Suits[s], Ranks[r])];
      }
    }
  }

  /** The deck up to card 13 * s + r, then that card, is the deck up to the next one. */
  lemma DeckPrefixStep(s: nat, r: nat)
    requires s < 4 && r < 13
    ensures FullDeck()[..13 * s + r + 1] == FullDeck()[..13 * s + r] + [MakeCard(Suits[s], Ranks[r])]
  {
    FullDeckAt(s, r);
    PrefixStep(FullDeck(), 13 * s + r);
  }

  /** Card 13 * s + r of the deck has suit `s` and rank `r`. */
  lemma FullDeckAt(s: nat, r: nat)
    requires s < 4 && r < 13
    ensures FullDeck()[13 * s + r] == MakeCard(Suits[s], Ranks[r])
  {
    DivMod13(s, r);
  }

  lemma PrefixStep<T>(d: seq<T>, n: nat)
    requires n < |d|
    ensures d[..n + 1] == d[..n] + [d[n]]
  {
  }

  /** The deck holds 52 different cards. */
  lemma {:induction false} FullDeckDistinct(i: nat, j: nat)
    requires i < j < 52
    ensures FullDeck()[i] != FullDeck()[j]
  {
    var d := FullDeck();
    if i / 13 != j / 13 {
      assert d[i][0] != d[j][0];
    } else {
      assert i % 13 != j % 13;
      RankIndexOfRank(i % 13);
      RankIndexOfRank(j % 13);
      assert d[i][1..] != d[j][1..];
    }
  }

  lemma DivMod13(s: nat, r: nat)
    requires r < 13
    ensures (13 * s + r) / 13 == s && (13 * s + r) % 13 == r
  {
  }

  /** Every valid card is in the deck, at position 13 * suit + rank. */
  lemma ValidCardInDeck(c: string)
    requires ValidCard(c)
    ensures c in FullDeck()
  {
    var s :| 0 <= s < 4 && Suits[s] == c[0];
    var r :| 0 <= r < 13 && Ranks[r] == c[1..];
    FullDeckAt(s, r);
    assert c == [c[0]] + c[1..];
  }

  /** Every card of the deck is a valid card. */
  lemma DeckCardValid(i: nat)
    requires i < 52
    ensures ValidCard(FullDeck()[i])
  {
    assert FullDeck()[i][1..] == Ranks[i % 13];
  }

  /** Every card of the deck is a valid card, and every valid card is in the deck. */
  lemma FullDeckComplete(c: string)
    ensures c in FullDeck() <==> ValidCard(c)
  {
    if ValidCard(c) {
      ValidCardInDeck(c);
    }
    if c in FullDeck() {
      var i :| 0 <= i < 52 && FullDeck()[i] == c;
      DeckCardValid(i);
    }
  }

  /* ---------- The shuffle (lines 72-79) ---------- */

  /** `shuffle`: Fisher-Yates on a copy of the input. `picks[i]` is the index
      `Math.floor(Math.random() * (i + 1))` drawn when position `i` is filled, so it is at
      most `i`. The result is a rearrangement of the input, which is left as it was. */
  method Shuffle<T>(s: seq<T>, picks: seq<nat>) returns (r: seq<T>)
    requires |picks| == |s|
    requires forall i :: 0 < i < |s| ==> picks[i] <= i
    ensures |r| == |s|
    ensures multiset(r) == multiset(s)
  {
    var copy := new T[|s|](k requires 0 <= k < |s| => s[k]);
    assert copy[..] == s;
    var i := |s| - 1;
    while i > 0
      invariant -1 <= i < |s|
      invariant multiset(copy[..]) == multiset(s)
    {
      var j := picks[i];
      copy[i], copy[j] := copy[j], copy[i];
      i := i - 1;
    }
    r := copy[..];
  }

  /* ---------- The deal (lines 81-88) ---------- */

  datatype Hands = Hands(north: seq<string>, east: seq<string>, south: seq<string>, west: seq<string>)

  /** `s.slice(from, to)` for `0 <= from <= to`: positions past the end are cut off. */
  function Slice<T>(s: seq<T>, from: nat, to: nat): (r: seq<T>)
    requires from <= to
    ensures to <= |s| ==> r == s[from..to]
    ensures |r| <= to - from
  {
    var lo := if from < |s| then from else |s|;
    var hi := if to < |s| then to else |s|;
    s[lo..hi]
  }

  /** The four hands `dealCards` cuts from the shuffled deck, thirteen cards each in order. */
  function DealHands(deck: seq<string>): (h: Hands)
    ensures |h.north| <= 13 && |h.east| <= 13 && |h.south| <= 13 && |h.west| <= 13
    ensures |deck| >= 52 ==> h.north == deck[..13] && h.east == deck[13..26]
                             && h.south == deck[26..39] && h.west == deck[39..52]
  {
    Hands(Slice(deck, 0, 13), Slice(deck, 13, 26), Slice(deck, 26, 39), Slice(deck, 39, 52))
  }

  /** The four hands of a 52-card deck have thirteen cards each and together are the deck. */
  lemma DealCoversDeck(deck: seq<string>)
    requires |deck| == 52
    ensures var h := DealHands(deck);
            |h.north| == 13 && |h.east| == 13 && |h.south| == 13 && |h.west| == 13
            && h.north + h.east + h.south + h.west == deck
  {
    assert deck[..13] + deck[13..26] + deck[26..39] + deck[39..52] == deck;
  }

  /** Of a deck of different cards, no card goes to two hands. */
  lemma DealDisjoint(deck: seq<string>, c: string)
    requires |deck| == 52
    requires forall i, j :: 0 <= i < j < 52 ==> deck[i] != deck[j]
    ensures var h := DealHands(deck);
            (if c in h.north then 1 else 0) + (if c in h.east then 1 else 0)
            + (if c in h.south then 1 else 0) + (if c in h.west then 1 else 0)
            == (if c in deck then 1 else 0)
  {
    var h := DealHands(deck);
    DealCoversDeck(deck);
    if c in h.north { var i :| 0 <= i < 13 && h.north[i] == c; assert deck[i] == c; }
    if c in h.east { var i :| 0 <= i < 13 && h.east[i] == c; assert deck[13 + i] == c; }
    if c in h.south { var i :| 0 <= i < 13 && h.south[i] == c; assert deck[26 + i] == c; }
    if c in h.west { var i :| 0 <= i < 13 && h.west[i] == c; assert deck[39 + i] == c; }
    if c in deck {
      var i :| 0 <= i < 52 && deck[i] == c;
      if i < 13 { assert h.north[i] == c; }
      else if i < 26 { assert h.east[i - 13] == c; }
      else if i < 39 { assert h.south[i - 26] == c; }
      else { assert h.west[i - 39] == c; }
    }
  }

  /* ---------- Hand notation for the bidding service (lines 32-60) ---------- */

  /** The ranks (`card.slice(1)`) of the cards of `hand` whose suit symbol is `suit`, in the
      order of the hand. */
  function RanksOfSuit(hand: seq<string>, suit: char): (r: seq<string>)
    ensures |r| <= |hand|
  {
    if |hand| == 0 then []
    else
      var c := hand[|hand| - 1];
      RanksOfSuit(hand[..|hand| - 1], suit) + (if |c| >= 1 && c[0] == suit then [c[1..]] else [])
  }

  /** One suit of the notation: its ranks sorted from the ace down and run together, or "x"
      for a void. */
  function Segment(ranks: seq<string>): (r: string)
    ensures |ranks| == 0 ==> r == "x"
    ensures |ranks| > 0 ==>
              exists sorted :: SortedBy(sorted, RankIndex) && multiset(sorted) == multiset(ranks) && r == Concat(sorted)
  {
    if |ranks| > 0 then
      StableSortSorted(ranks, RankIndex);
      StableSortPermutation(ranks, RankIndex);
      Concat(StableSort(ranks, RankIndex))
    else "x"
  }

  /** The notation of a hand: spades, hearts, diamonds and clubs, separated by dots. */
  function HandNotation(hand: seq<string>): (r: string)
    ensures (forall c :: c in hand ==> ValidCard(c)) ==>
              Split(r, '.') == [Segment(RanksOfSuit(hand, '♠')), Segment(RanksOfSuit(hand, '♥')),
                                Segment(RanksOfSuit(hand, '♦')), Segment(RanksOfSuit(hand, '♣'))]
  {
    NotationHasFourSegments(hand);
    Segment(RanksOfSuit(hand, '♠')) + "." + Segment(RanksOfSuit(hand, '♥')) + "."
    + Segment(RanksOfSuit(hand, '♦')) + "." + Segment(RanksOfSuit(hand, '♣'))
  }

  /** `formatHandForAI`. Every card must start with a suit symbol (the `Card` type): for any
      other first character the source fails when it pushes into a missing group. */
  method FormatHandForAI(hand: seq<string>) returns (notation: string)
    requires forall c :: c in hand ==> |c| >= 1 && c[0] in Suits
    ensures notation == HandNotation(hand)
  {
    var spades, hearts, diamonds, clubs := GroupRanks(hand);
    var s := SuitSegment(spades);
    var h := SuitSegment(hearts);
    var d := SuitSegment(diamonds);
    var c := SuitSegment(clubs);
    notation := s + "." + h + "." + d + "." + c;
  }

  /** Lines 41-45: the ranks of the hand pushed into the group of their suit, in hand order. */
  method GroupRanks(hand: seq<string>) returns (spades: seq<string>, hearts: seq<string>,
                                                diamonds: seq<string>, clubs: seq<string>)
    requires forall i :: 0 <= i < |hand| ==> |hand[i]| >= 1 && hand[i][0] in Suits
    ensures spades == RanksOfSuit(hand, '♠') && hearts == RanksOfSuit(hand, '♥')
    ensures diamonds == RanksOfSuit(hand, '♦') && clubs == RanksOfSuit(hand, '♣')
  {
    spades, hearts, diamonds, clubs := [], [], [], [];
    for i := 0 to |hand|
      invariant spades == RanksOfSuit(hand[..i], '♠')
      invariant hearts == RanksOfSuit(hand[..i], '♥')
      invariant diamonds == RanksOfSuit(hand[..i], '♦')
      invariant clubs == RanksOfSuit(hand[..i], '♣')
    {
      assert hand[..i + 1][..i] == hand[..i];
      var card := hand[i];
      var suit := card[0];
      var rank := card[1..];
      if suit == '♠' {
        spades := spades + [rank];
      } else if suit == '♥' {
        hearts := hearts + [rank];
      } else if suit == '♦' {
        diamonds := diamonds + [rank];
      } else {
        clubs := clubs + [rank];
      }
    }
    assert hand[..|hand|] == hand;
  }

  /** Lines 49-57 for one suit: the group sorted in place, then run together, or "x". */
  method SuitSegment(ranks: seq<string>) returns (segment: string)
    ensures segment == Segment(ranks)
  {
    var sorted := SortedCopy(ranks, RankIndex);
    segment := if |sorted| > 0 then Concat(sorted) else "x";
  }

  predicate NoDot(s: string) {
    '.' !in s
  }

  lemma {:induction false} ConcatNoDot(parts: seq<string>)
    requires forall i :: 0 <= i < |parts| ==> NoDot(parts[i])
    ensures NoDot(Concat(parts))
  {
    if |parts| > 0 {
      ConcatNoDot(parts[1..]);
    }
  }

  /** The ranks of a hand of valid cards are rank names. */
  lemma {:induction false} RanksOfSuitAreRanks(hand: seq<string>, suit: char)
    requires forall c :: c in hand ==> ValidCard(c)
    ensures forall r :: r in RanksOfSuit(hand, suit) ==> r in Ranks
  {
    if |hand| > 0 {
      assert forall c :: c in hand[..|hand| - 1] ==> c in hand;
      RanksOfSuitAreRanks(hand[..|hand| - 1], suit);
      assert hand[|hand| - 1] in hand;
    }
  }

  /** `parts.join("")` starts with the first character of the first part. */
  lemma ConcatHead(parts: seq<string>)
    requires |parts| > 0 && |parts[0]| > 0
    ensures Concat(parts)[0] == parts[0][0]
  {
    assert Concat(parts) == parts[0] + Concat(parts[1..]);
  }

  /** A rank name is not empty, has no dot and does not start with "x". */
  lemma RankShape(r: string)
    requires r in Ranks
    ensures NoDot(r) && |r| > 0 && r[0] != 'x'
  {
    var k :| 0 <= k < 13 && Ranks[k] == r;
    if k == 4 { assert r == "10"; } else { assert |r| == 1; }
  }

  /** A suit segment of valid ranks is "x" exactly for a void, and never holds a dot. */
  lemma SegmentOfRanks(ranks: seq<string>)
    requires forall r :: r in ranks ==> r in Ranks
    ensures NoDot(Segment(ranks))
    ensures Segment(ranks) == "x" <==> |ranks| == 0
  {
    if |ranks| > 0 {
      var sorted := StableSort(ranks, RankIndex);
      StableSortPermutation(ranks, RankIndex);
      forall i | 0 <= i < |sorted| ensures NoDot(sorted[i]) && |sorted[i]| > 0 && sorted[i][0] != 'x' {
        assert sorted[i] in multiset(ranks);
        RankShape(sorted[i]);
      }
      ConcatNoDot(sorted);
      ConcatHead(sorted);
    }
  }

  /** A non-void segment lists the suit's ranks from the ace down, each once for every card
      of that rank. */
  lemma SegmentSorted(ranks: seq<string>)
    requires |ranks| > 0
    ensures Segment(ranks) == Concat(StableSort(ranks, RankIndex))
    ensures SortedBy(StableSort(ranks, RankIndex), RankIndex)
    ensures multiset(StableSort(ranks, RankIndex)) == multiset(ranks)
  {
    StableSortSorted(ranks, RankIndex);
    StableSortPermutation(ranks, RankIndex);
  }

  /** Four dot-free pieces joined by dots split back into those four pieces. */
  lemma SplitFour(s: string, h: string, d: string, c: string)
    requires NoDot(s) && NoDot(h) && NoDot(d) && NoDot(c)
    ensures Split(s + "." + h + "." + d + "." + c, '.') == [s, h, d, c]
  {
    var tail := d + "." + c;
    var rest := h + "." + tail;
    assert s + "." + h + "." + d + "." + c == s + ['.'] + rest;
    assert rest == h + ['.'] + tail;
    assert tail == d + ['.'] + c;
    calc {
      Split(s + ['.'] + rest, '.');
      { SplitCons(s, rest, '.'); }
      [s] + Split(h + ['.'] + tail, '.');
      { SplitCons(h, tail, '.'); }
      [s] + ([h] + Split(d + ['.'] + c, '.'));
      { SplitCons(d, c, '.'); }
      [s] + ([h] + ([d] + Split(c, '.')));
      [s, h, d, c];
    }
  }

  /** The four segments of a hand of valid cards, joined by dots, split back into those
      segments: spades, hearts, diamonds, clubs. */
  lemma NotationHasFourSegments(hand: seq<string>)
    ensures var s, h, d, c := Segment(RanksOfSuit(hand, '♠')), Segment(RanksOfSuit(hand, '♥')),
                              Segment(RanksOfSuit(hand, '♦')), Segment(RanksOfSuit(hand, '♣'));
            (forall card :: card in hand ==> ValidCard(card)) ==>
              Split(s + "." + h + "." + d + "." + c, '.') == [s, h, d, c]
  {
    if !(forall card :: card in hand ==> ValidCard(card)) {
      return;
    }
    RanksOfSuitAreRanks(hand, '♠');
    RanksOfSuitAreRanks(hand, '♥');
    RanksOfSuitAreRanks(hand, '♦');
    RanksOfSuitAreRanks(hand, '♣');
    SegmentOfRanks(RanksOfSuit(hand, '♠'));
    SegmentOfRanks(RanksOfSuit(hand, '♥'));
    SegmentOfRanks(RanksOfSuit(hand, '♦'));
    SegmentOfRanks(RanksOfSuit(hand, '♣'));
    SplitFour(Segment(RanksOfSuit(hand, '♠')), Segment(RanksOfSuit(hand, '♥')),
              Segment(RanksOfSuit(hand, '♦')), Segment(RanksOfSuit(hand, '♣')));
  }
}

=== FILE: player_hand.dfy ===
/** The hand display of components/PlayerHand.tsx: grouping a hand into suits, each suit
    sorted from the ace down, and naming the picture file of each card. */
module PlayerHand {
  import opened Cards
  import opened Sorting

  /* ---------- Grouping (lines 8-38) ---------- */

  /** A card `sortAndGroupHand` keeps: two characters at least, the first a suit symbol.
      Anything else is warned about and skipped. */
  function Groupable(card: string): (r: bool)
    ensures ValidCard(card) ==> r
    ensures r ==> |card| >= 2 && (ValidCard(card) <==> card[1..] in Ranks)
  {
    |card| >= 2 && card[0] in Suits
  }

  /** The sort key of a grouped card: the position of `card.slice(1)` in the rank order,
      -1 for a rank the order does not know. */
  function CardKey(card: string): (k: int)
    ensures -1 <= k < |Ranks|
    ensures k == -1 <==> !(|card| >= 1 && card[1..] in Ranks)
    ensures k >= 0 ==> |card| >= 1 && Ranks[k] == card[1..]
  {
    RanksNonEmpty();
    RankIndex(if |card| >= 1 then card[1..] else "")
  }

  /** The kept cards of `hand` with suit symbol `suit`, in the order of the hand. */
  function CardsOfSuit(hand: seq<string>, suit: char): (r: seq<string>)
    ensures |r| <= |hand|
  {
    if |hand| == 0 then []
    else
      var c := hand[|hand| - 1];
      CardsOfSuit(hand[..|hand| - 1], suit) + (if Groupable(c) && c[0] == suit then [c] else [])
  }

  /** The kept cards of `hand`, in order. */
  function Kept(hand: seq<string>): (r: seq<string>)
    ensures |r| <= |hand|
  {
    if |hand| == 0 then []
    else Kept(hand[..|hand| - 1]) + (if Groupable(hand[|hand| - 1]) then [hand[|hand| - 1]] else [])
  }

  /** The record `sortAndGroupHand` returns, one list per suit. */
  datatype Grouped = Grouped(spades: seq<string>, hearts: seq<string>, diamonds: seq<string>, clubs: seq<string>)

  /** `sortAndGroupHand`: every suit's cards in hand order, then each suit stably sorted from
      the ace down. */
  method SortAndGroupHand(hand: seq<string>) returns (g: Grouped)
    ensures g.spades == StableSort(CardsOfSuit(hand, '♠'), CardKey)
    ensures g.hearts == StableSort(CardsOfSuit(hand, '♥'), CardKey)
    ensures g.diamonds == StableSort(CardsOfSuit(hand, '♦'), CardKey)
    ensures g.clubs == StableSort(CardsOfSuit(hand, '♣'), CardKey)
  {
    var spades: seq<string> := [];
    var hearts: seq<string> := [];
    var diamonds: seq<string> := [];
    var clubs: seq<string> := [];
    for i := 0 to |hand|
      invariant spades == CardsOfSuit(hand[..i], '♠')
      invariant hearts == CardsOfSuit(hand[..i], '♥')
      invariant diamonds == CardsOfSuit(hand[..i], '♦')
      invariant clubs == CardsOfSuit(hand[..i], '♣')
    {
      assert hand[..i + 1][..i] == hand[..i];
      var card := hand[i];
      if |card| < 2 || card[0] !in Suits {
        continue;
      }
      var suit := card[0];
      if suit == '♠' {
        spades := spades + [card];
      } else if suit == '♥' {
        hearts := hearts + [card];
      } else if suit == '♦' {
        diamonds := diamonds + [card];
      } else {
        clubs := clubs + [card];
      }
    }
    assert hand[..|hand|] == hand;
    spades := SortedCopy(spades, CardKey);
    hearts := SortedCopy(hearts, CardKey);
    diamonds := SortedCopy(diamonds, CardKey);
    clubs := SortedCopy(clubs, CardKey);
    g := Grouped(spades, hearts, diamonds, clubs);
  }

  /** All cards of the four suit groups, counted with their multiplicity. */
  function GroupedCards(hand: seq<string>): multiset<string> {
    multiset(CardsOfSuit(hand, '♠')) + multiset(CardsOfSuit(hand, '♥'))
    + multiset(CardsOfSuit(hand, '♦')) + multiset(CardsOfSuit(hand, '♣'))
  }

  /** The four suit groups split the kept cards: none is lost and none is repeated. */
  lemma {:induction false} GroupsPartitionKept(hand: seq<string>)
    ensures GroupedCards(hand) == multiset(Kept(hand))
  {
    if |hand| > 0 {
      var init, c := hand[..|hand| - 1], hand[|hand| - 1];
      assert hand == init + [c];
      GroupsPartitionKept(init);
      GroupStep(init, c);
    }
  }

  /** Adding one card to the hand adds it to the groups exactly when it is kept. */
  lemma GroupStep(init: seq<string>, c: string)
    ensures GroupedCards(init + [c]) == GroupedCards(init) + (if Groupable(c) then multiset{c} else multiset{})
    ensures multiset(Kept(init + [c])) == multiset(Kept(init)) + (if Groupable(c) then multiset{c} else multiset{})
  {
    KeptStep(init, c);
    SuitStep(init, c, '♠');
    SuitStep(init, c, '♥');
    SuitStep(init, c, '♦');
    SuitStep(init, c, '♣');
    JoinsOneSuit(c);
  }

  lemma KeptStep(init: seq<string>, c: string)
    ensures multiset(Kept(init + [c])) == multiset(Kept(init)) + (if Groupable(c) then multiset{c} else multiset{})
  {
    var h := init + [c];
    assert h[..|h| - 1] == init && h[|h| - 1] == c;
  }

  /** A kept card joins exactly one group. */
  lemma JoinsOneSuit(c: string)
    ensures Joins(c, '♠') + Joins(c, '♥') + Joins(c, '♦') + Joins(c, '♣')
            == (if Groupable(c) then multiset{c} else multiset{})
  {
    if Groupable(c) {
      assert c[0] == '♠' || c[0] == '♥' || c[0] == '♦' || c[0] == '♣';
    }
  }

  /** What card `c` adds to the group of `suit`. */
  function Joins(c: string, suit: char): multiset<string> {
    if Groupable(c) && c[0] == suit then multiset{c} else multiset{}
  }

  /** Adding one card to the hand adds it to the group of `suit` exactly when it is kept and
      of that suit. */
  lemma SuitStep(init: seq<string>, c: string, suit: char)
    ensures multiset(CardsOfSuit(init + [c], suit)) == multiset(CardsOfSuit(init, suit)) + Joins(c, suit)
  {
    var h := init + [c];
    assert h[..|h| - 1] == init && h[|h| - 1] == c;
  }

  /** A card lands in the group of its own suit exactly when it is kept. */
  lemma {:induction false} CardsOfSuitMembers(hand: seq<string>, suit: char, c: string)
    ensures c in CardsOfSuit(hand, suit) <==> c in hand && Groupable(c) && c[0] == suit
  {
    if |hand| > 0 {
      CardsOfSuitMembers(hand[..|hand| - 1], suit, c);
      assert hand == hand[..|hand| - 1] + [hand[|hand| - 1]];
    }
  }

  /** Each group of the result is ordered from the ace down and is a rearrangement of the
      hand's cards of that suit; together the groups hold every kept card, once per copy. */
  lemma GroupedIsSortedPartition(hand: seq<string>, suit: char)
    ensures SortedBy(StableSort(CardsOfSuit(hand, suit), CardKey), CardKey)
    ensures multiset(StableSort(CardsOfSuit(hand, suit), CardKey)) == multiset(CardsOfSuit(hand, suit))
    ensures multiset(StableSort(CardsOfSuit(hand, '♠'), CardKey)) + multiset(StableSort(CardsOfSuit(hand, '♥'), CardKey))
            + multiset(StableSort(CardsOfSuit(hand, '♦'), CardKey)) + multiset(StableSort(CardsOfSuit(hand, '♣'), CardKey))
            == multiset(Kept(hand))
  {
    StableSortSorted(CardsOfSuit(hand, suit), CardKey);
    StableSortPermutation(CardsOfSuit(hand, suit), CardKey);
    StableSortPermutation(CardsOfSuit(hand, '♠'), CardKey);
    StableSortPermutation(CardsOfSuit(hand, '♥'), CardKey);
    StableSortPermutation(CardsOfSuit(hand, '♦'), CardKey);
    StableSortPermutation(CardsOfSuit(hand, '♣'), CardKey);
    GroupsPartitionKept(hand);
  }

  /* ---------- Picture files (lines 40-75) ---------- */

  const SuitNames: map<char, string> :=
    map['♠' := "spades", '♥' := "hearts", '♦' := "diamonds", '♣' := "clubs"]

  const RankNames: map<string, string> :=
    map["A" := "ace", "K" := "king", "Q" := "queen", "J" := "jack", "10" := "10",
        "9" := "9", "8" := "8", "7" := "7", "6" := "6", "5" := "5", "4" := "4",
        "3" := "3", "2" := "2"]

  const BackFile := "/cards/back.png"

  /** The two lookup tables know exactly the suits and ranks of a valid card. */
  lemma NamesCoverCards(c: string)
    ensures (|c| >= 2 && c[0] in SuitNames && c[1..] in RankNames) <==> ValidCard(c)
  {
    if |c| >= 2 {
      assert c[0] in SuitNames <==> c[0] in Suits;
      assert c[1..] in RankNames <==> c[1..] in Ranks;
    }
  }

  /** `convertCardToFilename`: the picture of a valid card, the card back for anything else. */
  function ConvertCardToFilename(card: string): (r: string)
    ensures !ValidCard(card) ==> r == BackFile
    ensures ValidCard(card) ==> r == "/cards/" + RankNames[card[1..]] + "_of_" + SuitNames[card[0]] + ".png"
  {
    NamesCoverCards(card);
    if |card| < 2 || card[0] !in SuitNames || card[1..] !in RankNames then BackFile
    else "/cards/" + RankNames[card[1..]] + "_of_" + SuitNames[card[0]] + ".png"
  }

  predicate NoUnderscore(s: string) {
    '_' !in s
  }

  /** The rank a picture name stands for: the inverse of `RankNames`. */
  function RankOfName(name: string): string {
    if name == "ace" then "A"
    else if name == "king" then "K"
    else if name == "queen" then "Q"
    else if name == "jack" then "J"
    else name
  }

  /** Each rank's name is non-empty, holds no underscore and leads back to the rank. */
  lemma RankNameShape(rank: string)
    requires rank in RankNames
    ensures NoUnderscore(RankNames[rank]) && |RankNames[rank]| > 0
    ensures RankOfName(RankNames[rank]) == rank
  {
  }

  /** Two names free of `sep`, each followed by a text starting with `sep`, are equal when the
      two joined texts are. */
  lemma PrefixBeforeSeparator(a: string, x: string, b: string, y: string)
    requires NoUnderscore(a) && NoUnderscore(b)
    requires |x| > 0 && |y| > 0 && x[0] == '_' && y[0] == '_'
    requires a + x == b + y
    ensures a == b && x == y
  {
    assert a == (a + x)[..|a|] && b == (b + y)[..|b|];
    assert x == (a + x)[|a|..] && y == (b + y)[|b|..];
  }

  /** Different suits have different names. */
  lemma SuitNameInjective(a: char, b: char)
    requires a in SuitNames && b in SuitNames && SuitNames[a] == SuitNames[b]
    ensures a == b
  {
  }

  /** Different ranks have different names. */
  lemma RankNameInjective(a: string, b: string)
    requires a in RankNames && b in RankNames && RankNames[a] == RankNames[b]
    ensures a == b
  {
    RankNameShape(a);
    RankNameShape(b);
  }

  /** The picture path splits back into its rank name and suit name. */
  lemma PathParts(r1: string, s1: string, r2: string, s2: string)
    requires NoUnderscore(r1) && NoUnderscore(r2)
    requires "/cards/" + r1 + "_of_" + s1 + ".png" == "/cards/" + r2 + "_of_" + s2 + ".png"
    ensures r1 == r2 && s1 == s2
  {
    var f1 := "/cards/" + r1 + "_of_" + s1 + ".png";
    var f2 := "/cards/" + r2 + "_of_" + s2 + ".png";
    var t1 := "_of_" + s1 + ".png";
    var t2 := "_of_" + s2 + ".png";
    assert f1[7..] == r1 + t1;
    assert f2[7..] == r2 + t2;
    PrefixBeforeSeparator(r1, t1, r2, t2);
    assert s1 == t1[4..|t1| - 4];
    assert s2 == t2[4..|t2| - 4];
  }

  /** Different valid cards get different pictures, and no valid card shows the back. */
  lemma FilenameInjective(c1: string, c2: string)
    requires ValidCard(c1) && ValidCard(c2)
    requires ConvertCardToFilename(c1) == ConvertCardToFilename(c2)
    ensures c1 == c2
    ensures ConvertCardToFilename(c1) != BackFile
  {
    NamesCoverCards(c1);
    NamesCoverCards(c2);
    RankNameShape(c1[1..]);
    RankNameShape(c2[1..]);
    PathParts(RankNames[c1[1..]], SuitNames[c1[0]], RankNames[c2[1..]], SuitNames[c2[0]]);
    RankNameInjective(c1[1..], c2[1..]);
    SuitNameInjective(c1[0], c2[0]);
    assert c1 == [c1[0]] + c1[1..] && c2 == [c2[0]] + c2[1..];
    assert |ConvertCardToFilename(c1)| > |BackFile|;
  }
}

=== FILE: sorting.dfy ===
/** `Array.prototype.sort` with a comparator `(a, b) => key(a) - key(b)`.  Since ECMAScript 2019
    the sort is required to be stable, so its result is the one insertion sort gives:
    `StableSort` is that result, and `SortInPlace` computes it on an array. */
module Sorting {

  predicate SortedBy<T>(s: seq<T>, key: T -> int) {
    forall i, j :: 0 <= i < j < |s| ==> key(s[i]) <= key(s[j])
  }

  /** Adds `x` after `t`, then moves it left past every element whose key is larger. */
  function Insert<T>(t: seq<T>, x: T, key: T -> int): (r: seq<T>)
    ensures |r| == |t| + 1
  {
    if |t| == 0 then [x]
    else if key(t[|t| - 1]) > key(x) then Insert(t[..|t| - 1], x, key) + [t[|t| - 1]]
    else t + [x]
  }

  /** Inserting adds exactly the one element. */
  lemma {:induction false} InsertPermutation<T>(t: seq<T>, x: T, key: T -> int)
    ensures multiset(Insert(t, x, key)) == multiset(t) + multiset{x}
  {
    if |t| > 0 && key(t[|t| - 1]) > key(x) {
      InsertPermutation(t[..|t| - 1], x, key);
      assert t == t[..|t| - 1] + [t[|t| - 1]];
    }
  }

  /** The stable sort of `s` by `key`: insert the elements one by one, left to right. */
  function StableSort<T>(s: seq<T>, key: T -> int): (r: seq<T>)
    ensures |r| == |s|
  {
    if |s| == 0 then [] else Insert(StableSort(s[..|s| - 1], key), s[|s| - 1], key)
  }

  lemma {:induction false} InsertSorted<T>(t: seq<T>, x: T, key: T -> int)
    requires SortedBy(t, key)
    ensures SortedBy(Insert(t, x, key), key)
  {
    if |t| > 0 && key(t[|t| - 1]) > key(x) {
      var init := t[..|t| - 1];
      var last := t[|t| - 1];
      var r' := Insert(init, x, key);
      InsertSorted(init, x, key);
      InsertPermutation(init, x, key);
      forall y | y in r' ensures key(y) <= key(last) {
        assert y in multiset(r');
        if y != x {
          assert y in multiset(init);
          var k :| 0 <= k < |init| && init[k] == y;
          assert t[k] == y;
        }
      }
      var r := r' + [last];
      forall i, j | 0 <= i < j < |r| ensures key(r[i]) <= key(r[j]) {
        if j == |r| - 1 {
          assert r[i] in r';
        }
      }
    }
  }

  /** The result of `StableSort` is ordered by `key`. */
  lemma {:induction false} StableSortSorted<T>(s: seq<T>, key: T -> int)
    ensures SortedBy(StableSort(s, key), key)
  {
    if |s| > 0 {
      StableSortSorted(s[..|s| - 1], key);
      InsertSorted(StableSort(s[..|s| - 1], key), s[|s| - 1], key);
    }
  }

  /** The result of `StableSort` is a rearrangement of its input. */
  lemma {:induction false} StableSortPermutation<T>(s: seq<T>, key: T -> int)
    ensures multiset(StableSort(s, key)) == multiset(s)
  {
    if |s| > 0 {
      StableSortPermutation(s[..|s| - 1], key);
      InsertPermutation(StableSort(s[..|s| - 1], key), s[|s| - 1], key);
      assert s == s[..|s| - 1] + [s[|s| - 1]];
    }
  }

  /** The elements of `s` whose key is `k`, in the order of `s`. */
  function WithKey<T>(s: seq<T>, key: T -> int, k: int): (r: seq<T>)
    ensures |r| <= |s|
  {
    if |s| == 0 then []
    else WithKey(s[..|s| - 1], key, k) + (if key(s[|s| - 1]) == k then [s[|s| - 1]] else [])
  }

  lemma WithKeyAppend<T>(s: seq<T>, y: T, key: T -> int, k: int)
    ensures WithKey(s + [y], key, k) == WithKey(s, key, k) + (if key(y) == k then [y] else [])
  {
    assert (s + [y])[..|s|] == s;
  }

  /** Inserting `x` never moves it past an element with its own key. */
  lemma {:induction false} InsertWithKey<T>(t: seq<T>, x: T, key: T -> int, k: int)
    ensures WithKey(Insert(t, x, key), key, k) == WithKey(t, key, k) + (if key(x) == k then [x] else [])
  {
    if |t| == 0 {
      WithKeyAppend(t, x, key, k);
    } else if key(t[|t| - 1]) > key(x) {
      var init, last := t[..|t| - 1], t[|t| - 1];
      InsertWithKey(init, x, key, k);
      WithKeyAppend(Insert(init, x, key), last, key, k);
      WithKeyAppend(init, last, key, k);
      assert init + [last] == t;
    } else {
      WithKeyAppend(t, x, key, k);
    }
  }

  /** The sort is stable: for every key, the elements with that key come out in the order
      they went in. */
  lemma {:induction false} StableSortStable<T>(s: seq<T>, key: T -> int, k: int)
    ensures WithKey(StableSort(s, key), key, k) == WithKey(s, key, k)
  {
    if |s| > 0 {
      StableSortStable(s[..|s| - 1], key, k);
      InsertWithKey(StableSort(s[..|s| - 1], key), s[|s| - 1], key, k);
    }
  }

  /** Sorts `a` in place, keeping elements with equal keys in their original order. */
  method SortInPlace<T>(a: array<T>, key: T -> int)
    modifies a
    ensures a[..] == StableSort(old(a[..]), key)
  {
    ghost var orig := a[..];
    var i := 0;
    while i < a.Length
      invariant 0 <= i <= a.Length
      invariant a[..i] == StableSort(orig[..i], key)
      invariant a[i..] == orig[i..]
    {
      assert a[i] == orig[i];
      InsertLast(a, i, key);
      assert orig[..i + 1][..i] == orig[..i];
      i := i + 1;
    }
    assert orig[..a.Length] == orig;
  }

  /** Copies a list into a fresh array, sorts it in place and reads it back, as `list.sort(...)`
      does on the group lists of the hand formatter and of the hand display. */
  method SortedCopy<T>(s: seq<T>, key: T -> int) returns (sorted: seq<T>)
    ensures sorted == StableSort(s, key)
  {
    var a := new T[|s|](k requires 0 <= k < |s| => s[k]);
    assert a[..] == s;
    SortInPlace(a, key);
    sorted := a[..];
  }

  /** One pass of insertion sort: shifts the larger keys before `a[i]` one place right and
      puts `a[i]` in the gap they leave. */
  method InsertLast<T>(a: array<T>, i: nat, key: T -> int)
    requires i < a.Length
    modifies a
    ensures a[..i + 1] == Insert(old(a[..i]), old(a[i]), key)
    ensures a[i + 1..] == old(a[i + 1..])
  {
    ghost var t := a[..i];
    var x := a[i];
    var j := i;
    while j > 0 && key(a[j - 1]) > key(x)
      invariant 0 <= j <= i
      invariant forall k :: 0 <= k < j ==> a[k] == t[k]
      invariant forall k :: j < k <= i ==> a[k] == t[k - 1]
      invariant forall k :: i < k < a.Length ==> a[k] == old(a[k])
      invariant forall k :: j <= k < i ==> key(t[k]) > key(x)
    {
      a[j] := a[j - 1];
      j := j - 1;
    }
    a[j] := x;
    Assembled(a[..i + 1], t, x, j);
    InsertAt(t, x, key, j);
  }

  /** A sequence that agrees with `t` before `j`, holds `x` at `j` and `t` shifted by one
      after it is `t` with `x` inserted at `j`. */
  lemma Assembled<T>(s: seq<T>, t: seq<T>, x: T, j: nat)
    requires |s| == |t| + 1 && j <= |t|
    requires forall k :: 0 <= k < j ==> s[k] == t[k]
    requires s[j] == x
    requires forall k :: j < k < |s| ==> s[k] == t[k - 1]
    ensures s == t[..j] + [x] + t[j..]
  {
    var r := t[..j] + [x] + t[j..];
    forall k | 0 <= k < |s| ensures s[k] == r[k] {
      if k < j {
        assert r[k] == t[k];
      } else if k > j {
        assert r[k] == t[k - 1];
      }
    }
  }

  /** `Insert` puts `x` just after the last key not larger than its own: in front of every
      larger key at the end of `t`. */
  lemma {:induction false} InsertAt<T>(t: seq<T>, x: T, key: T -> int, j: nat)
    requires j <= |t| && (j == 0 || key(t[j - 1]) <= key(x))
    requires forall k :: j <= k < |t| ==> key(t[k]) > key(x)
    ensures Insert(t, x, key) == t[..j] + [x] + t[j..]
  {
    if j < |t| {
      var init, last := t[..|t| - 1], t[|t| - 1];
      InsertAt(init, x, key, j);
      assert init[..j] == t[..j];
      assert init[j..] + [last] == t[j..];
    }
  }
}

=== FILE: text.dfy ===
/** String helpers standing for the JavaScript string operations the bridge table uses:
    `toLowerCase`, `endsWith`, `parseInt(_, 10)` and `join("")`; and `Split`, which the table
    never calls: it reads the dotted hand notation back into its pieces, so that what the
    notation holds can be stated. */
module Text {

  datatype Option<T> = None | Some(value: T)

  /** `toLowerCase` on one character; only the ASCII letters are folded. */
  function LowerChar(c: char): (r: char)
    ensures 'A' <= c <= 'Z' ==> 'a' <= r <= 'z' && r as int == c as int + 32
    ensures !('A' <= c <= 'Z') ==> r == c
  {
    if 'A' <= c <= 'Z' then (c as int + 32) as char else c
  }

  function Lower(s: string): (r: string)
    ensures |r| == |s|
    ensures forall i :: 0 <= i < |s| ==> r[i] == LowerChar(s[i])
  {
    seq(|s|, i requires 0 <= i < |s| => LowerChar(s[i]))
  }

  predicate EndsWith(s: string, suffix: string) {
    |suffix| <= |s| && s[|s| - |suffix|..] == suffix
  }

  predicate IsDigit(c: char) {
    '0' <= c <= '9'
  }

  function DigitValue(c: char): nat
    requires IsDigit(c)
  {
    c as int - '0' as int
  }

  /** The longest prefix of `s` made of decimal digits. */
  function LeadingDigits(s: string): (r: string)
    ensures r <= s
    ensures forall i :: 0 <= i < |r| ==> IsDigit(r[i])
    ensures |r| < |s| ==> !IsDigit(s[|r|])
  {
    if |s| > 0 && IsDigit(s[0]) then [s[0]] + LeadingDigits(s[1..]) else []
  }

  /** The decimal value of a string of digits, most significant digit first. */
  function DigitsValue(d: string): nat
    requires forall i :: 0 <= i < |d| ==> IsDigit(d[i])
  {
    if |d| == 0 then 0 else DigitsValue(d[..|d| - 1]) * 10 + DigitValue(d[|d| - 1])
  }

  /** `parseInt(s, 10)`: the value of the leading digits, or None for NaN. */
  function ParseInt(s: string): (r: Option<int>)
    ensures r.None? <==> (|s| == 0 || !IsDigit(s[0]))
  {
    var d := LeadingDigits(s);
    if |d| == 0 then None else Some(DigitsValue(d))
  }

  /** The position of the last element of `s` that `skip` does not accept, if any:
      the backward scan the auction rules repeat for "last non-Pass" and "last contract". */
  function LastIndexNot<T>(s: seq<T>, skip: T -> bool): (r: Option<nat>)
    ensures r.Some? ==> r.value < |s| && !skip(s[r.value])
    ensures r.Some? ==> forall i :: r.value < i < |s| ==> skip(s[i])
    ensures r.None? ==> forall i :: 0 <= i < |s| ==> skip(s[i])
  {
    if |s| == 0 then None
    else if !skip(s[|s| - 1]) then Some(|s| - 1)
    else LastIndexNot(s[..|s| - 1], skip)
  }

  /** Two scans agree when their sequences are accepted at the same positions. */
  lemma {:induction false} LastIndexNotTransfer<S, T>(s: seq<S>, t: seq<T>, p: S -> bool, q: T -> bool)
    requires |s| == |t|
    requires forall i :: 0 <= i < |s| ==> p(s[i]) == q(t[i])
    ensures LastIndexNot(s, p) == LastIndexNot(t, q)
  {
    if |s| > 0 {
      LastIndexNotTransfer(s[..|s| - 1], t[..|t| - 1], p, q);
    }
  }

  /** `parts.join("")`. */
  function Concat(parts: seq<string>): (r: string)
    ensures |parts| > 0 && |parts[0]| > 0 ==> |r| > 0
    ensures forall c :: c in r <==> exists k :: 0 <= k < |parts| && c in parts[k]
  {
    if |parts| == 0 then "" else parts[0] + Concat(parts[1..])
  }

  /** The maximal pieces of `s` between occurrences of `sep`, as JavaScript's `s.split(sep)`
      would give them: the reading of a text joined with `sep` back into its pieces. */
  function Split(s: string, sep: char): (r: seq<string>)
    ensures |r| > 0
    ensures forall k, i :: 0 <= k < |r| && 0 <= i < |r[k]| ==> r[k][i] != sep
    decreases |s|
  {
    if sep !in s then [s]
    else
      var i := FirstIndex(s, sep);
      [s[..i]] + Split(s[i + 1..], sep)
  }

  function FirstIndex(s: string, c: char): (i: nat)
    requires c in s
    ensures i < |s| && s[i] == c && c !in s[..i]
  {
    if s[0] == c then 0 else 1 + FirstIndex(s[1..], c)
  }

  /** Splitting a piece without separators, followed by the separator, peels that piece off. */
  lemma {:induction false} SplitCons(a: string, rest: string, sep: char)
    requires sep !in a
    ensures Split(a + [sep] + rest, sep) == [a] + Split(rest, sep)
  {
    var s := a + [sep] + rest;
    assert s[|a|] == sep;
    var i := FirstIndex(s, sep);
    assert s[..|a|] == a;
    assert i == |a|;
    assert s[..i] == a;
    assert s[i + 1..] == rest;
  }
}
